=== FILE: README.md ===
# tgads-backend core, modelled in Dafny

This project models the scraping and storage core of a Telegram Ads statistics
backend.

- **Campaign page** (`GetCampaign` in `pkg/tgads/client.go`). A campaign's public
  control page becomes a `Campaign`. The id comes from the share link and the
  status from the trimmed status text. Two CSV export links are cut out of the
  raw page bytes, and each gets `period=day` forced into its query.
- **Statistics reconciliation** (`GetStats`). Two tab-separated exports are
  merged into one record per day:
  - The daily stats export gives the date and the views, clicks and actions.
  - The daily budget export gives, row for row, the amount spent, and the
    cost per thousand views follows from it.
- **Storage** (`statsRepository.Create` in `internal/repository/stats.go` and the
  statements in `internal/repository/sql_queries.go`).
  - The records become six parallel arrays.
  - The stats statement unnests them and upserts one row per
    `(campaign_id, date)`.
  - The campaign insert keeps the first row of an id, and the rate upsert keeps
    the last rate of a date.
  - `SELECT *` returns every campaign once.

Modules:

- Outcome: `Option` and `Result`, and one `Error` type. Each error string and
  each panic of the source is its own constructor; a panic is never a
  precondition.
- Text: `strings.TrimSpace`, the comma-to-point replacement, and
  `bytes.Index` for one character.
- Numeric: `onlyNumeric` (a loop proved against `Digits`), `strconv.Atoi`
  with the int64 range, and `decimal.NewFromString` with exact values.
- Dates: the strict `"02 Jan 2006"` parser and its rendering, which are
  inverse to each other. Also the `time.DateTime` rendering and the `::date`
  cast that reads it back.
- CampaignLinks: the share link and the id regular expression. They form a
  round trip.
- ExportLinks: the marker scan (`FindAllIndex`), the closing-quote search and
  the URL query handling.
- CampaignPage: `GetCampaign` as a method that fills the result field by
  field, with the source's early returns.
- Reconcile: `getTsv` and the two loops of `GetStats`. Each loop is a method
  proved equal to a specification function, and lemmas state what that
  function guarantees.
- StatsBatch: the batch-building loop of `Create`.
- Store: the three tables as maps, the four statements, a `Database` class
  whose methods update the tables, and `StatsRepository.Create`.

Behaviour of the code worth knowing:

- The column guards refuse only a header wider than 4 (stats) or 3 (budget)
  cells, with `>`. A narrower header is accepted, and its short rows then panic
  on the field index. That panic is `RowTooShort` here.
- On every error, `GetStats` returns the records built so far, not an empty
  result. `Partial` keeps both the records and the error.
- A budget table with more data rows than there are records indexes past the
  records and panics (`BudgetRowWithoutStat`). There is no alignment error for
  this case.
- A budget amount that does not parse leaves the record's spend at zero.
  `decimal.NewFromString` returns the zero decimal with its error, and the
  source stores it before checking the error.

## Model

| member | source | states |
|---|---|---|
| `Text.IndexOf` | pkg/tgads/client.go:122 | the first position holding the character, with none before it, or -1 exactly when it is absent |
| `Text.CommaToPoint` | pkg/tgads/client.go:242 | same length; every ',' becomes '.', every other character is kept in place |
| `Text.TrimSpace` | pkg/tgads/client.go:101 | the trimmed text is no longer than the input and neither starts nor ends with white space; with `TrimSpaceDecomposes`, it is the input less its leading and trailing white space |
| `Text.TrimSpaceDecomposes` | pkg/tgads/client.go:101 | TrimSpace removes only white space: the input is leading white space, the trimmed text, then trailing white space |
| `Text.TrimSpaceOfFramed` | pkg/tgads/client.go:101 | a text not starting or ending in white space, framed by white space, trims back to itself |
| `Numeric.Digits` | pkg/tgads/client.go:286-294 | the result is no longer than the input and holds digits only |
| `Numeric.DigitsAreSelected` | pkg/tgads/client.go:286-294 | output character i is the input character at the i-th digit position, so exactly the digits are kept, in order |
| `Numeric.DigitsIdempotent` | pkg/tgads/client.go:286-294 | stripping non-digits twice is stripping once |
| `Numeric.DigitsExample` | pkg/tgads/client.go:198 | the thousands separator disappears: "1,234" reads as "1234" |
| `Numeric.OnlyNumeric` | pkg/tgads/client.go:286-294 | the loop appending each digit rune yields exactly `Digits(input)` |
| `Numeric.Atoi` | pkg/tgads/client.go:198 | a success lies in the int64 range; a failure is a syntax or a range error |
| `Numeric.AtoiOfDigits` | pkg/tgads/client.go:198-210 | Atoi of a stripped cell fails with a syntax error when it has no digit, with a range error above int64, and otherwise gives the digits' value |
| `Numeric.AtoiOfNatString` | pkg/tgads/client.go:198 | Atoi inverts the decimal rendering of every non-negative int64 |
| `Numeric.ParseDecimal` | pkg/tgads/client.go:242-245 | every failure is the decimal parse error; `DecimalOfInteger`, `DecimalTwoPoints` and `DecimalRejectsNonDigit` give its value without a point and two ways it fails: a second point, or a non-digit in an amount without a point |
| `Numeric.DecimalOfInteger` | pkg/tgads/client.go:242-245 | an amount of digits without a point is read as the integer they spell |
| `Numeric.DecimalTwoPoints` | pkg/tgads/client.go:242-245 | a text with two points is refused with the decimal parse error |
| `Numeric.DecimalRejectsNonDigit` | pkg/tgads/client.go:242-245 | without a point, any character other than a leading sign and digits is refused |
| `Numeric.DecimalOfDigits` | pkg/tgads/client.go:242 | "a.b" of digit strings parses to a + b / 10^len(b) |
| `Numeric.DecimalOfCommaDigits` | pkg/tgads/client.go:242 | a locale amount "a,b" of digit strings, its comma turned into a point, is read as the number a + b / 10^len(b) |
| `Dates.MonthNumber` | pkg/tgads/client.go:165 | 0 exactly for a text that names no month, otherwise the month whose abbreviation it is |
| `Dates.MonthNumberOfName` | pkg/tgads/client.go:165 | each month's abbreviation maps back to that month |
| `Dates.ParseDate` | pkg/tgads/client.go:193-196 | a successful parse renders back to exactly the text it read; every failure is the date error |
| `Dates.ParseTelegramFormat` | pkg/tgads/client.go:165 | every calendar date's "02 Jan 2006" rendering parses back to that date |
| `Dates.DateTimeFormat` | internal/repository/stats.go:39 | the time.DateTime rendering is 19 characters |
| `Dates.CastDate` | internal/repository/sql_queries.go:7 | a text the date cast accepts is the DateTime rendering of the date it yields, whose year is at least 1 |
| `Dates.CastDateTimeFormat` | internal/repository/stats.go:39 | the rendering the repository sends casts back to the same date, except a date in year 0, which the cast refuses |
| `CampaignLinks.CampaignId` | pkg/tgads/client.go:45-54 | succeeds exactly on the share links of non-empty alphanumeric ids; the id rebuilds the link; failure is "invalid link" |
| `CampaignLinks.CampaignIdOfShareLink` | pkg/tgads/client.go:41-43 | the id of a well-formed id's share link is that id |
| `CampaignLinks.CampaignIdRejects` | pkg/tgads/client.go:38 | a trailing slash, an empty id or a query string is refused |
| `CampaignLinks.ShareLink` | pkg/tgads/client.go:41-43 | the share link of an id; with `CampaignIdOfShareLink`, GetCampaignId reads every well-formed id back from it |
| `ExportLinks.MarkersApart` | pkg/tgads/client.go:37 | two occurrences of the export marker never overlap |
| `ExportLinks.FindMarkers` | pkg/tgads/client.go:116 | every match lies at or after the search start and fits in the page; with `FindMarkersExact`, the matches are exactly the occurrences, ascending |
| `ExportLinks.FindMarkersExact` | pkg/tgads/client.go:116 | the scan reports every marker occurrence from its start on, nothing else, in ascending order |
| `ExportLinks.MarkerCount` | pkg/tgads/client.go:116-119 | the number of matches is the number of occurrences of the marker |
| `ExportLinks.UntilQuote` | pkg/tgads/client.go:121-123 | the fragment runs up to and excludes the next double quote; None exactly when no quote follows |
| `ExportLinks.ForceDayPeriod` | pkg/tgads/client.go:130-133 | `period` becomes ["day"]; every other key and the base are unchanged |
| `ExportLinks.ParseQuery` | pkg/tgads/client.go:131 | parsing more pairs only adds keys and appends values: what was collected before is kept as a prefix |
| `ExportLinks.ParseUrl` | pkg/tgads/client.go:125-131 | the base is the text before the first '?'; the query is the parse of what follows it, empty when there is no '?' |
| `ExportLinks.ExportLink` | pkg/tgads/client.go:123-134 | the origin plus the fragment, split at '?', with period forced to ["day"]; `ExportLinkKeepsOrigin`, `ExportLinkWithoutQuery` and `ExportLinkWithPair` state it |
| `ExportLinks.ExportLinkKeepsOrigin` | pkg/tgads/client.go:123-134 | the link's base is the whole origin followed by the fragment up to its first '?', and `period` holds "day" alone |
| `ExportLinks.ParseQueryPair` | pkg/tgads/client.go:131 | a single pair "key=value" gives one key holding the one value |
| `ExportLinks.ExportLinkWithoutQuery` | pkg/tgads/client.go:122-134 | a fragment without a query becomes the origin plus the fragment, with the query period=day only |
| `ExportLinks.ExportLinkWithPair` | pkg/tgads/client.go:122-134 | a fragment with one query pair keeps it, except that a `period` value becomes "day" |
| `ExportLinks.ExtractExportLinks` | pkg/tgads/client.go:113-150 | a failure is either the marker-count error or the missing closing quote |
| `ExportLinks.ExtractNeedsTwoMarkers` | pkg/tgads/client.go:116-119 | the count error arises exactly when the page does not hold exactly two markers |
| `ExportLinks.FirstLinkClosed` | pkg/tgads/client.go:121-123 | when a second marker exists, the first fragment always has a closing quote |
| `ExportLinks.FindTwoMarkers` | pkg/tgads/client.go:116 | a page with markers only at p0 < p1 yields the matches [p0, p1] |
| `ExportLinks.ExportFragments` | pkg/tgads/client.go:113-139 | the index-count error exactly when the matches are not two; otherwise the missing-quote error exactly when no quote follows one of the markers; otherwise each fragment is the text after its marker up to the next quote, stats first |
| `ExportLinks.FragmentsAt` | pkg/tgads/client.go:121-139 | with markers exactly at p0 and p1 and a quote after the first, the fragments are the text up to each quote, or a missing-quote error from the second |
| `ExportLinks.ExtractWithMarkersAt` | pkg/tgads/client.go:121-150 | with markers at p0 < p1, extraction fails only when no quote follows the second; otherwise the links are the two fragments with period=day |
| `CampaignPage.ActiveWhenFramed` | pkg/tgads/client.go:101-102 | "Active" surrounded by any white space is active |
| `CampaignPage.ActiveOnlyWhenFramed` | pkg/tgads/client.go:101-102 | an active status is "Active" surrounded by white space and nothing else |
| `CampaignPage.IsActive` | pkg/tgads/client.go:101-102 | the status test; `ActiveWhenFramed` and `ActiveOnlyWhenFramed` state that it holds exactly for "Active" framed by white space |
| `CampaignPage.Unpadded` | pkg/tgads/client.go:101-102 | a status without white space at either end is active exactly when it is "Active" |
| `CampaignPage.ActiveExamples` | pkg/tgads/client.go:101-102 | the comparison is case-sensitive and exact after trimming |
| `CampaignPage.GetCampaign` | pkg/tgads/client.go:66-153 | each error in the source's order with the fields filled so far; success exactly when every check passes, then the full campaign, whose id rebuilds the link |
| `Reconcile.GetTsv` | pkg/tgads/client.go:258-284 | the table is returned exactly when the fetch succeeded, the status is 200 and the Content-Type is exactly text/csv; the status is checked first |
| `Reconcile.ParseCount` | pkg/tgads/client.go:198-210 | a count cell parses exactly when it has a digit and its digits fit int64, to the value of its digits |
| `Reconcile.ParseStatsRow` | pkg/tgads/client.go:190-213 | a row parses exactly when it has four fields, a date and three counts; the date renders back to field 0, the counts are the fields' digit values, spend and cpm are zero |
| `Reconcile.CollectFromSpec` | pkg/tgads/client.go:190-214 | the loop keeps its prefix and appends parsed rows in order until the first failing row, whose error it returns |
| `Reconcile.CollectFromStart` | pkg/tgads/client.go:185-215 | the stats loop from the first row keeps a prefix of successful parses, in order, and stops with the first failure's error |
| `Reconcile.CollectRowsSpec` | pkg/tgads/client.go:185-215 | over the data rows: record i is the parse of row i, success exactly when every row parses, otherwise the first failing row's error |
| `Reconcile.StatsRecords` | pkg/tgads/client.go:185-215 | the stats half as a function; `StatsRecordsSpec` states its records and error |
| `Reconcile.StatsRecordsSpec` | pkg/tgads/client.go:185-215 | no data rows give no records; a header over four cells is refused; otherwise record i is the parse of data row i, up to the first failure |
| `Reconcile.Cpm` | pkg/tgads/client.go:247-251 | cpm times views is spend times 1000 when there are views, and spend times 1000 otherwise |
| `Reconcile.CpmExamples` | pkg/tgads/client.go:247-251 | 12.5 spent over 500 views is 25; 3 spent over no views is 3000 |
| `Reconcile.Priced` | pkg/tgads/client.go:242-251 | pricing keeps date and counts, sets spend, and sets cpm by the rule above |
| `Reconcile.ReadBudgetRowOfExport` | pkg/tgads/client.go:230-242 | a budget row as the export writes it, a "02 Jan 2006" date and an amount "a,b", reads as that date and the amount a + b / 10^len(b) |
| `Reconcile.BudgetStep` | pkg/tgads/client.go:230-251 | only record i changes, only in spend and cpm; success exactly when the record exists and the row's date and amount match it; each failure's error, a missing amount cell included; a bad amount leaves spend zero |
| `Reconcile.BudgetFromSpec` | pkg/tgads/client.go:230-252 | the budget loop keeps every record's date and counts and succeeds exactly when every remaining row is aligned with its record, then prices each |
| `Reconcile.BudgetRowsSpec` | pkg/tgads/client.go:225-253 | over the data rows: counts never change, records past the rows never change, success exactly when every row aligns with its record, then each is priced by its row |
| `Reconcile.ApplyBudget` | pkg/tgads/client.go:225-253 | the budget half as a function; `ApplyBudgetSpec` and `ApplyBudgetFailsAt` state its records and error |
| `Reconcile.ApplyBudgetSpec` | pkg/tgads/client.go:225-253 | no data rows change nothing; a header over three cells is refused; success exactly when the rows are no more than the records and each aligns, then each record carries its row's amount |
| `Reconcile.BudgetStepLocal` | pkg/tgads/client.go:236-239 | a step's verdict and the record it leaves depend only on the record it prices |
| `Reconcile.FirstFailingBudgetRow` | pkg/tgads/client.go:230-252 | after aligned rows, the first failing row's error is the loop's error; the records before it are priced, the failing one is as that step leaves it, the rest unchanged |
| `Reconcile.FailedStepRecord` | pkg/tgads/client.go:236-245 | a failing step leaves its record with spend zeroed when the date matched and an amount cell was there, and unchanged otherwise |
| `Reconcile.ApplyBudgetFailsAt` | pkg/tgads/client.go:225-253 | the first failing budget data row decides the error of the budget half, returned with the records so far: each before it priced by its row, the failing one with spend zeroed when its date matched and it had an amount, the rest unchanged |
| `Reconcile.BudgetLongerThanStats` | pkg/tgads/client.go:236 | a budget table longer than the records stops at the first row with no record to price |
| `Reconcile.Reconcile` | pkg/tgads/client.go:172-256 | the whole merge as a function: the stats half, then the budget half on its records; `ReconcileOk` states a success |
| `Reconcile.ReconcileOk` | pkg/tgads/client.go:172-256 | a successful merge has one record per stats data row, each from its row, priced by its budget row when there is one and zero-priced otherwise |
| `Reconcile.ReadStatsTable` | pkg/tgads/client.go:185-215 | the stats loop computes exactly the stats half's records and error |
| `Reconcile.PriceRecord` | pkg/tgads/client.go:230-251 | one pass of the budget loop does exactly one budget step: the checks in the source's order, the spend zeroed on an unreadable amount, the record priced otherwise |
| `Reconcile.PriceByBudget` | pkg/tgads/client.go:225-253 | the budget loop, updating records in place, computes exactly the budget half |
| `Reconcile.GetStats` | pkg/tgads/client.go:172-256 | the whole operation computes exactly `Reconcile`, the records so far included on error |
| `StatsBatch.Columns` | internal/repository/stats.go:22-45 | all six arrays have one element per record, and element i of each comes from record i |
| `StatsBatch.ColumnsOfNone` | internal/repository/stats.go:30-36 | no records give six empty arrays |
| `StatsBatch.BuildBatch` | internal/repository/stats.go:38-45 | the appending loop builds exactly `Columns(stats)` |
| `Store.Unnest` | internal/repository/sql_queries.go:4-12 | the VALUES succeed exactly when every date casts, every count fits int4 and the arrays have equal length; row i carries element i of each array |
| `Store.UpsertAll` | internal/repository/sql_queries.go:13-19 | the keys become the old keys plus the batch's; keys outside the batch keep their rows |
| `Store.UpsertAllPointwise` | internal/repository/sql_queries.go:13-19 | with distinct dates, each batch date's row holds exactly that batch entry |
| `Store.UpsertAllIdempotent` | internal/repository/sql_queries.go:4-20 | running the same batch twice is running it once |
| `Store.InsertCampaign` | internal/repository/sql_queries.go:21-32 | an existing id changes nothing; a new id adds exactly its row; existing rows are kept |
| `Store.InsertCampaignIdempotent` | internal/repository/sql_queries.go:31 | inserting the same row twice is inserting it once |
| `Store.FirstCampaignWins` | internal/repository/sql_queries.go:31 | of two inserts of one id, the first row stays |
| `Store.UpsertRate` | internal/repository/sql_queries.go:37-41 | the date's rate becomes the new one; other dates keep theirs |
| `Store.LastRateWins` | internal/repository/sql_queries.go:40 | of two rates written for one date, the last one stays |
| `Store.Database.UpsertRows` | internal/repository/sql_queries.go:13-19 | each unnested row, in order, inserted or overwriting the stored row of the same campaign and date; the other tables unchanged |
| `Store.Database.ExecCreateStats` | internal/repository/stats.go:47-62 | success exactly when the batch unnests with distinct dates, then every row is upserted; otherwise nothing changes; the other tables never change |
| `Store.Database.ExecCreateCampaign` | internal/repository/sql_queries.go:21-32 | the campaigns table becomes `InsertCampaign` of the old one; the table stays keyed by row id |
| `Store.Database.ExecCreateRate` | internal/repository/sql_queries.go:37-41 | the rates table becomes `UpsertRate` of the old one; the other tables are unchanged |
| `Store.Database.FetchCampaigns` | internal/repository/sql_queries.go:33-36 | every stored campaign exactly once: same count, same rows, distinct ids |
| `Store.DatesCastBack` | internal/repository/sql_queries.go:7 | each rendered date of a corresponding batch casts back to its record's date unless that is in year 0, so the date array casts exactly when no record is dated in year 0 |
| `Store.CountsFitBatch` | internal/repository/sql_queries.go:8-10 | the batch's counts fit int4 exactly when the records' counts do |
| `Store.UnnestCorresponding` | internal/repository/sql_queries.go:4-12 | any batch corresponding to the records unnests back to their rows; it fails with the date cast error on a record in year 0, and otherwise only on a count outside int4 |
| `Store.UnnestColumns` | internal/repository/stats.go:38-57 | the batch of a record sequence unnests back to those records; it fails with the date cast error on a record in year 0, and otherwise only on a count outside int4 |
| `Store.StatsRepository.Create` | internal/repository/stats.go:18-63 | success exactly when no record is dated in year 0, every count fits int4 and no two records share a date; then the records are upserted, otherwise the table is unchanged |
| `Store.CreateStoresEveryRecord` | internal/repository/stats.go:18-63 | after a successful Create, each record is stored under its campaign and date |

## Left out

- HTTP: resty requests, tracing spans, contexts and headers other than Content-Type are
  not modelled. A fetch arrives as a `Result`, and its transport error as an `Err`.
- goquery: HTML parsing and the CSS selectors are library calls. `GetCampaign`
  receives their answers as a `Page` value:
  - the og:title count;
  - the link's href, if any;
  - the status text;
  - the description's `Html()`, None on a render error;
  - the button text.
  A `NewDocumentFromReader` error is a fetch error.
- encoding/csv: the tab-separated reader is not modelled. The table arrives
  already read, and None stands for a reader error. The reader's rule that every
  record has the header's field count is therefore not visible to the model.
- ExportLinks.ParseUrl: only the split at '?' and url.Values parsing are
  modelled. `url.Parse` failures, escaping, the Scheme assignment and the
  serialisation by `Encode`/`String` are not. A link is kept as its base plus
  its query map. `url.Parse` first cuts off a '#' fragment, which the model
  does not: "p?a=1#x" gives a=["1"] in Go and a=["1#x"] here.
- ExportLinks.ParseQuery: keys and values are kept as written; the unescaping
  of '+' and %XX sequences that url.ParseQuery applies is not modelled.
- Numeric.ParseDecimal: exponent notation ("1e3") is not accepted.
- Reconcile.Cpm: shopspring's `Div` rounds to 16 fractional digits. The model
  divides exactly, so cpm equals spend × 1000 / views with no rounding.
- `Decimal.String` is not modelled. The batch carries the exact values that the
  decimal text denotes.
- Dates.ParseDate: years are limited to 0..9999, the range of the layout.
  Time zones are not modelled; parsed dates are midnight UTC.
- Dates.ParseDate: time.Parse lets a space of the layout match a run of
  spaces, so "02  Jan 2024" parses in Go; the model accepts exactly one space
  and returns `BadDate`. Its promise that a success renders back to the text it
  read holds for this stricter parser only.
- Dates.MonthNumber: time.Parse matches month names without regard to ASCII
  case, so "jan" and "JAN" name January in Go. The model matches the exact
  abbreviation, and such dates are `BadDate` here.
- Numeric.Atoi: for a text whose leading digits already exceed the unsigned
  64-bit range and are followed by a non-digit, such as
  "99999999999999999999x", strconv reports the range error first, while the
  model reports `BadInt`.
  The texts `GetStats` passes hold digits only, so this case does not arise
  there.
- Dates.CastDate: only the midnight DateTime text that the repository produces
  is accepted. Postgres' other accepted date spellings are not modelled.
- Store.Unnest: Postgres pads unequal-length arrays unnested in one VALUES row
  with nulls. The model refuses them (`RaggedBatch`) instead. `Create` always
  builds equal lengths, so this does not arise there.
- Execution errors other than the data errors modelled (connection, transaction)
  are not modelled.
- The campaigns and rates repositories' Go wrappers are not modelled; only their
  SQL statements are. This also covers the use cases, the cron refresh, the HTTP
  delivery layer and the coingecko client.
- `GetStats` mutates records through `*Stats` pointers. The model updates a value
  sequence, so aliasing between `res` and `item` is not modelled.
- A Go panic (`RowTooShort`, `BudgetRowWithoutStat`, `NoClosingQuote`) is an
  error value here. The partial result returned with it has no counterpart in
  the source, where the goroutine unwinds.

=== FILE: batch.dfy ===
/**
  statsRepository.Create (internal/repository/stats.go): the records of a
  campaign turned into six parallel arrays, one element per record, in the
  records' order, that the upsert statement unnests row by row.  Dates are
  rendered in Go's time.DateTime layout; the amounts travel as decimal text
  that Postgres reads back exactly, so the model keeps the values that text
  denotes.
 */
module StatsBatch {
  import opened Dates
  import opened Reconcile

  datatype Batch = Batch(
    datetime: seq<string>,
    views: seq<int>,
    clicks: seq<int>,
    action: seq<int>,
    spend: seq<real>,
    cpm: seq<real>)

  /** All six arrays have n elements. */
  predicate Columnar(b: Batch, n: nat) {
    |b.datetime| == n && |b.views| == n && |b.clicks| == n
    && |b.action| == n && |b.spend| == n && |b.cpm| == n
  }

  /** Element i of every array comes from record i. */
  predicate Corresponds(b: Batch, stats: seq<Stats>)
    requires Columnar(b, |stats|)
  {
    forall i :: 0 <= i < |stats| ==>
      && b.datetime[i] == DateTimeFormat(stats[i].date)
      && b.views[i] == stats[i].views
      && b.clicks[i] == stats[i].clicks
      && b.action[i] == stats[i].actions
      && b.spend[i] == stats[i].spend
      && b.cpm[i] == stats[i].cpm
  }

  /** The batch of a sequence of records: each record appends one element to each
      array. Every array has one element per record, and element i is record i's. */
  function Columns(stats: seq<Stats>): (b: Batch)
    ensures Columnar(b, |stats|)
    ensures Corresponds(b, stats)
  {
    if stats == [] then Batch([], [], [], [], [], [])
    else
      var b := Columns(stats[..|stats| - 1]);
      var s := stats[|stats| - 1];
      assert forall i :: 0 <= i < |stats| - 1 ==> stats[..|stats| - 1][i] == stats[i];
      Batch(b.datetime + [DateTimeFormat(s.date)], b.views + [s.views], b.clicks + [s.clicks],
            b.action + [s.actions], b.spend + [s.spend], b.cpm + [s.cpm])
  }

  /** No records, six empty arrays. */
  lemma ColumnsOfNone()
    ensures Columns([]) == Batch([], [], [], [], [], [])
  {
  }

  /** The loop of Create, appending to the six arrays record by record. */
  method BuildBatch(stats: seq<Stats>) returns (batch: Batch)
    ensures batch == Columns(stats)
  {
    batch := Batch([], [], [], [], [], []);
    for i := 0 to |stats|
      invariant batch == Columns(stats[..i])
    {
      var item := stats[i];
      assert stats[..i + 1][..i] == stats[..i];
      batch := batch.(datetime := batch.datetime + [DateTimeFormat(item.date)]);
      batch := batch.(views := batch.views + [item.views]);
      batch := batch.(clicks := batch.clicks + [item.clicks]);
      batch := batch.(action := batch.action + [item.actions]);
      batch := batch.(spend := batch.spend + [item.spend]);
      batch := batch.(cpm := batch.cpm + [item.cpm]);
    }
    assert stats[..|stats|] == stats;
  }
}

=== FILE: campaign_links.dfy ===
/**
  The public share link of a campaign and its inverse
  (GetCampaignShareLink and GetCampaignId in pkg/tgads/client.go).  The
  inverse accepts a link exactly when the whole of it matches
  ^https://ads\.telegram\.org/stats/([A-Za-z0-9]+)$ (Go's `$` without the
  multi-line flag only matches at the very end of the text).
 */
module CampaignLinks {
  import opened Outcome

  const SharePrefix: string := "https://ads.telegram.org/stats/"

  predicate IsAlnum(c: char) {
    ('A' <= c <= 'Z') || ('a' <= c <= 'z') || ('0' <= c <= '9')
  }

  /** A non-empty run of ASCII letters and digits: the capture group of the pattern. */
  predicate IsCampaignId(id: string) {
    id != [] && forall i :: 0 <= i < |id| ==> IsAlnum(id[i])
  }

  /** GetCampaignShareLink: the control-page URL built from a campaign id. */
  function ShareLink(id: string): string {
    SharePrefix + id
  }

  /** GetCampaignId: the id captured from a share link, or "invalid link". It succeeds
      exactly on the share links of well-formed ids, and what it returns rebuilds the
      link it was given. */
  function CampaignId(link: string): (r: Result<string>)
    ensures r.Ok? <==> exists id :: IsCampaignId(id) && link == ShareLink(id)
    ensures r.Ok? ==> IsCampaignId(r.value) && ShareLink(r.value) == link
    ensures r.Err? ==> r.error == InvalidLink
  {
    var n := |SharePrefix|;
    if |link| > n && link[..n] == SharePrefix && IsCampaignId(link[n..]) then
      assert link == ShareLink(link[n..]);
      Ok(link[n..])
    else
      assert forall id :: link == ShareLink(id) ==> link[..n] == SharePrefix && link[n..] == id;
      Err(InvalidLink)
  }

  /** The round trip the refresh job relies on: the share link built from a stored
      id yields that id again. */
  lemma CampaignIdOfShareLink(id: string)
    requires IsCampaignId(id)
    ensures CampaignId(ShareLink(id)) == Ok(id)
  {
    var link := ShareLink(id);
    assert link[..|SharePrefix|] == SharePrefix && link[|SharePrefix|..] == id;
  }

  /** Links that only look like share links are refused: a trailing slash, an empty
      id, or a query string. */
  lemma CampaignIdRejects()
    ensures CampaignId("https://ads.telegram.org/stats/abc/").Err?
    ensures CampaignId("https://ads.telegram.org/stats/").Err?
    ensures CampaignId("https://ads.telegram.org/stats/abc?x=1").Err?
  {
    assert !IsAlnum('/') && !IsAlnum('?');
    assert "https://ads.telegram.org/stats/abc/"[|SharePrefix| + 3] == '/';
    assert "https://ads.telegram.org/stats/abc?x=1"[|SharePrefix| + 3] == '?';
  }
}

=== FILE: campaign_page.dfy ===
/**
  GetCampaign (pkg/tgads/client.go): turning a fetched control page into a
  Campaign.  The HTTP fetch and the DOM queries are library calls; their
  answers reach the model as a Page value, and the fetch's own failure as
  an Err.  What the model computes itself is the order of the checks, the
  id taken from the link, the status comparison, and the two export links
  recovered from the raw bytes.
 */
module CampaignPage {
  import opened Outcome
  import Text
  import opened CampaignLinks
  import opened ExportLinks

  /** The answers of the DOM queries GetCampaign makes, and the raw bytes. */
  datatype Page = Page(
    ogTitleMetas: nat,            // how many meta[property="og:title"] elements there are
    adLink: Option<string>,       // href of div.pr-ad-info-value>a, if there is one
    statusText: string,           // text of the first status value
    description: Option<string>,  // Html() of the description; None when rendering fails
    buttonText: string,           // text of the button
    body: string)                 // the page as received

  datatype Campaign = Campaign(
    id: string,
    statsCsvLink: Url,
    budgetCsvLink: Url,
    text: string,
    buttonText: string,
    link: string,
    active: bool)

  const NoUrl: Url := Url("", map[])

  /** The zero Campaign the source starts from. */
  const EmptyCampaign: Campaign := Campaign("", NoUrl, NoUrl, "", "", "", false)

  /** The status comparison: trimmed, case-sensitive, exact. */
  predicate IsActive(status: string) {
    Text.TrimSpace(status) == "Active"
  }

  /** "Active" surrounded by any white space counts as active ... */
  lemma ActiveWhenFramed(l: string, r: string)
    requires Text.AllSpace(l) && Text.AllSpace(r)
    ensures IsActive(l + "Active" + r)
  {
    Text.TrimSpaceOfFramed(l, "Active", r);
  }

  /** ... and nothing else does. */
  lemma ActiveOnlyWhenFramed(status: string)
    requires IsActive(status)
    ensures var l, r := Text.LeadingSpace(status), Text.TrailingSpace(status);
      Text.AllSpace(l) && Text.AllSpace(r) && status == l + "Active" + r
  {
    Text.TrimSpaceDecomposes(status);
  }

  lemma ActiveExamples()
    ensures IsActive(" Active\n")
    ensures !IsActive("active") && !IsActive("Inactive") && !IsActive("Active now")
  {
    ActiveWhenFramed(" ", "\n");
    assert " " + "Active" + "\n" == " Active\n";
    Unpadded("active");
    Unpadded("Inactive");
    Unpadded("Active now");
  }

  /** A status with no white space at either end is compared as it is. */
  lemma Unpadded(status: string)
    requires status != [] && !Text.IsSpace(status[0]) && !Text.IsSpace(status[|status| - 1])
    ensures IsActive(status) <==> status == "Active"
  {
    Text.TrimSpaceOfFramed("", status, "");
    assert "" + status + "" == status;
  }

  /** GetCampaign. Errors come in the source's order: the fetch, the "not found"
      marker (exactly one og:title meta), the link's id, the ad link, the
      description's rendering, the export links. On an error the fields filled
      so far are returned with it. */
  method GetCampaign(link: string, fetched: Result<Page>) returns (res: Campaign, err: Option<Error>)
    ensures fetched.Err? ==> res == EmptyCampaign && err == Some(fetched.error)
    ensures fetched.Ok? && fetched.value.ogTitleMetas == 1 ==>
      res == EmptyCampaign && err == Some(CampaignNotFound)
    ensures fetched.Ok? && fetched.value.ogTitleMetas != 1 && CampaignId(link).Err? ==>
      res == EmptyCampaign && err == Some(InvalidLink)
    ensures fetched.Ok? && fetched.value.ogTitleMetas != 1 && CampaignId(link).Ok?
            && fetched.value.adLink.None? ==>
      res == EmptyCampaign.(id := CampaignId(link).value) && err == Some(MissingAdLink)
    ensures fetched.Ok? && fetched.value.ogTitleMetas != 1 && CampaignId(link).Ok?
            && fetched.value.adLink.Some? && fetched.value.description.None? ==>
      && res == EmptyCampaign.(id := CampaignId(link).value, link := fetched.value.adLink.value,
                               active := IsActive(fetched.value.statusText))
      && err == Some(HtmlRenderFailed)
    ensures err.None? <==>
      && fetched.Ok? && fetched.value.ogTitleMetas != 1 && CampaignId(link).Ok?
      && fetched.value.adLink.Some? && fetched.value.description.Some?
      && ExtractExportLinks(fetched.value.body).Ok?
    ensures err.None? ==>
      var page := fetched.value;
      var links := ExtractExportLinks(page.body).value;
      res == Campaign(CampaignId(link).value, links.0, links.1, page.description.value,
                      page.buttonText, page.adLink.value, IsActive(page.statusText))
    ensures err.None? ==> ShareLink(res.id) == link && IsCampaignId(res.id)
    ensures err.Some? && fetched.Ok? && fetched.value.ogTitleMetas != 1 && CampaignId(link).Ok?
            && fetched.value.adLink.Some? && fetched.value.description.Some? ==>
      && err == Some(ExtractExportLinks(fetched.value.body).error)
      && res == Campaign(CampaignId(link).value, NoUrl, NoUrl, fetched.value.description.value,
                         fetched.value.buttonText, fetched.value.adLink.value, IsActive(fetched.value.statusText))
  {
    res := EmptyCampaign;
    if fetched.Err? {
      return res, Some(fetched.error);
    }
    var page := fetched.value;
    if page.ogTitleMetas == 1 {
      return res, Some(CampaignNotFound);
    }
    var id := CampaignId(link);
    if id.Err? {
      return res, Some(id.error);
    }
    res := res.(id := id.value);
    if page.adLink.None? {
      return res, Some(MissingAdLink);
    }
    res := res.(link := page.adLink.value);
    res := res.(active := IsActive(page.statusText));
    if page.description.None? {
      return res, Some(HtmlRenderFailed);
    }
    res := res.(text := page.description.value);
    res := res.(buttonText := page.buttonText);
    var links := ExtractExportLinks(page.body);
    if links.Err? {
      return res, Some(links.error);
    }
    res := res.(statsCsvLink := links.value.0);
    res := res.(budgetCsvLink := links.value.1);
    err := None;
  }
}

=== FILE: dates.dfy ===
/**
  Calendar dates as the scraper handles them: a (year, month, day) triple
  read from the exports' "02 Jan 2006" layout (telegramDatetimeFormat in
  pkg/tgads/client.go), rendered for storage in Go's time.DateTime layout
  "2006-01-02 15:04:05", and cast back to a date by the `::date[]` cast of
  the stats upsert.  time.Parse without a zone yields midnight UTC, so two
  parsed instants are Equal exactly when their triples are equal.
 */
module Dates {
  import opened Outcome
  import opened Numeric

  predicate IsLeap(year: int) {
    year % 4 == 0 && (year % 100 != 0 || year % 400 == 0)
  }

  function DaysIn(month: int, year: int): int
    requires 1 <= month <= 12
  {
    if month == 2 then (if IsLeap(year) then 29 else 28)
    else if month == 4 || month == 6 || month == 9 || month == 11 then 30
    else 31
  }

  datatype Date = Date(year: int, month: int, day: int) {
    /** A day of the calendar with a four-digit year, the range the layouts cover. */
    predicate Valid() {
      0 <= year <= 9999 && 1 <= month <= 12 && 1 <= day <= DaysIn(month, year)
    }
  }

  type CalendarDate = d: Date | d.Valid() witness Date(1970, 1, 1)

  const MonthNames: seq<string> :=
    ["Jan", "Feb", "Mar", "Apr", "May", "Jun", "Jul", "Aug", "Sep", "Oct", "Nov", "Dec"]

  /** The number of a three-letter month name, or 0 when it names no month. */
  function MonthNumber(name: string): (m: int)
    ensures 0 <= m <= 12
    ensures m > 0 ==> MonthNames[m - 1] == name
    ensures m == 0 <==> name !in MonthNames
  {
    if name == "Jan" then 1 else if name == "Feb" then 2 else if name == "Mar" then 3
    else if name == "Apr" then 4 else if name == "May" then 5 else if name == "Jun" then 6
    else if name == "Jul" then 7 else if name == "Aug" then 8 else if name == "Sep" then 9
    else if name == "Oct" then 10 else if name == "Nov" then 11 else if name == "Dec" then 12
    else 0
  }

  lemma MonthNumberOfName(m: int)
    requires 1 <= m <= 12
    ensures MonthNumber(MonthNames[m - 1]) == m
  {
  }

  /** Two zero-padded digits. */
  function Pad2(n: nat): (s: string)
    requires n < 100
    ensures |s| == 2 && AllDigits(s)
  {
    [DigitChar(n / 10), DigitChar(n % 10)]
  }

  /** Four zero-padded digits. */
  function Pad4(n: nat): (s: string)
    requires n < 10000
    ensures |s| == 4 && AllDigits(s)
  {
    Pad2(n / 100) + Pad2(n % 100)
  }

  lemma DecValueOfPad2(n: nat)
    requires n < 100
    ensures DecValue(Pad2(n)) == n
  {
    var s := Pad2(n);
    assert s[..1][..0] == [];
    assert DecValue(s[..1]) == n / 10;
  }

  lemma Pad2OfDecValue(s: string)
    requires |s| == 2 && AllDigits(s)
    ensures DecValue(s) < 100 && Pad2(DecValue(s)) == s
  {
    assert s[..1][..0] == [];
    assert s[..1][0] == s[0];
    assert DecValue(s[..1]) == DigitValue(s[0]);
    assert DecValue(s) == 10 * DigitValue(s[0]) + DigitValue(s[1]);
    var n := DecValue(s);
    assert n / 10 == DigitValue(s[0]) && n % 10 == DigitValue(s[1]);
  }

  lemma DecValueOfPad4(n: nat)
    requires n < 10000
    ensures DecValue(Pad4(n)) == n
  {
    DecValueAppend(Pad2(n / 100), Pad2(n % 100));
    DecValueOfPad2(n / 100);
    DecValueOfPad2(n % 100);
  }

  lemma Pad4OfDecValue(s: string)
    requires |s| == 4 && AllDigits(s)
    ensures DecValue(s) < 10000 && Pad4(DecValue(s)) == s
  {
    var hi, lo := s[..2], s[2..];
    assert s == hi + lo;
    DecValueAppend(hi, lo);
    Pad2OfDecValue(hi);
    Pad2OfDecValue(lo);
    var n := DecValue(s);
    assert n == DecValue(hi) * 100 + DecValue(lo);
    assert n / 100 == DecValue(hi) && n % 100 == DecValue(lo);
  }

  /** The "02 Jan 2006" rendering of a date. */
  function TelegramFormat(d: CalendarDate): (s: string)
    ensures |s| == 11
  {
    Pad2(d.day) + " " + MonthNames[d.month - 1] + " " + Pad4(d.year)
  }

  /** time.Parse("02 Jan 2006", s): two-digit day, month abbreviation, four-digit
      year, each separated by one space, and the day must exist in that month.
      Stricter than time.Parse, which also takes runs of spaces and month names in
      any ASCII case. A success always reads back to the text it came from. */
  function ParseDate(s: string): (r: Result<CalendarDate>)
    ensures r.Ok? ==> TelegramFormat(r.value) == s
    ensures r.Err? ==> r.error == BadDate
  {
    if |s| != 11 || s[2] != ' ' || s[6] != ' ' || !AllDigits(s[..2]) || !AllDigits(s[7..]) then
      Err(BadDate)
    else
      var day, month, year := DecValue(s[..2]), MonthNumber(s[3..6]), DecValue(s[7..]);
      Pad2OfDecValue(s[..2]);
      Pad4OfDecValue(s[7..]);
      if month == 0 || day < 1 || day > DaysIn(month, year) then Err(BadDate)
      else
        var d := Date(year, month, day);
        assert s == s[..2] + " " + s[3..6] + " " + s[7..];
        Ok(d)
  }

  /** Every date's rendering parses back to it: with ParseDate's contract, ParseDate
      is exactly the inverse of TelegramFormat. */
  lemma ParseTelegramFormat(d: CalendarDate)
    ensures ParseDate(TelegramFormat(d)) == Ok(d)
  {
    var s := TelegramFormat(d);
    assert s[..2] == Pad2(d.day) && s[3..6] == MonthNames[d.month - 1] && s[7..] == Pad4(d.year);
    DecValueOfPad2(d.day);
    DecValueOfPad4(d.year);
    MonthNumberOfName(d.month);
  }

  /** time.Time.Format(time.DateTime) for a date at midnight. */
  function DateTimeFormat(d: CalendarDate): (s: string)
    ensures |s| == 19
  {
    Pad4(d.year) + "-" + Pad2(d.month) + "-" + Pad2(d.day) + " 00:00:00"
  }

  /** The `::date` cast applied to a rendering in the DateTime layout at midnight;
      None for any other text. The Postgres calendar has no year 0, so a year of
      0000 is out of range. */
  function CastDate(s: string): (r: Option<CalendarDate>)
    ensures r.Some? ==> DateTimeFormat(r.value) == s && r.value.year >= 1
  {
    if |s| != 19 || s[4] != '-' || s[7] != '-' || s[10..] != " 00:00:00"
       || !AllDigits(s[..4]) || !AllDigits(s[5..7]) || !AllDigits(s[8..10]) then
      None
    else
      var year, month, day := DecValue(s[..4]), DecValue(s[5..7]), DecValue(s[8..10]);
      Pad4OfDecValue(s[..4]);
      Pad2OfDecValue(s[5..7]);
      Pad2OfDecValue(s[8..10]);
      if year == 0 || month < 1 || month > 12 || day < 1 || day > DaysIn(month, year) then None
      else
        assert s == s[..4] + "-" + s[5..7] + "-" + s[8..10] + s[10..];
        Some(Date(year, month, day))
  }

  /** The rendering the repository sends is cast back to the same date, unless its
      year is 0. */
  lemma CastDateTimeFormat(d: CalendarDate)
    ensures CastDate(DateTimeFormat(d)) == if d.year == 0 then None else Some(d)
  {
    var s := DateTimeFormat(d);
    assert s[..4] == Pad4(d.year) && s[5..7] == Pad2(d.month) && s[8..10] == Pad2(d.day);
    assert s[10..] == " 00:00:00";
    DecValueOfPad4(d.year);
    DecValueOfPad2(d.month);
    DecValueOfPad2(d.day);
  }
}

=== FILE: export_links.dfy ===
/**
  Recovery of the two export links from the raw bytes of a campaign page
  (GetCampaign, pkg/tgads/client.go).  The page's inline script holds two
  fragments, each right after the marker "csvExport":"\ and ending at the
  next double quote.  Each fragment is prefixed with the platform origin,
  parsed as a URL, and gets its `period` query parameter forced to "day".
  The first occurrence gives the stats export, the second the budget
  export; any other number of occurrences is refused.
 */
module ExportLinks {
  import opened Outcome
  import Text

  const Origin: string := "https://ads.telegram.org"

  /** The literal text the pattern "csvExport":"\\ matches. */
  const Marker: string := "\"csvExport\":\"\\"

  predicate MarkerAt(body: string, p: int) {
    0 <= p && p + |Marker| <= |body| && body[p..p + |Marker|] == Marker
  }

  /** The start of every marker occurrence in `body`. */
  function MarkerPositions(body: string): set<int> {
    set p | 0 <= p < |body| && MarkerAt(body, p)
  }

  /** Two occurrences of the marker never overlap: its only inner double quotes
      are followed by ':' and '\', never by the 'c' that follows the first one. */
  lemma MarkersApart(body: string, p: int, q: int)
    requires MarkerAt(body, p) && MarkerAt(body, q) && p < q
    ensures p + |Marker| <= q
  {
    assert body[q] == '"' && body[q + 1] == 'c' by {
      assert body[q..q + |Marker|][0] == body[q] && body[q..q + |Marker|][1] == body[q + 1];
    }
    forall k | 0 <= k < |Marker| && p + k < |body| ensures body[p + k] == Marker[k] {
      assert body[p..p + |Marker|][k] == body[p + k];
    }
    assert forall k :: 1 <= k < |Marker| - 1 ==> Marker[k] != '"' || Marker[k + 1] != 'c';
    assert Marker[|Marker| - 1] != '"';
  }

  /** regexp FindAllIndex: the leftmost occurrence at or after `from`, then the
      search goes on from the end of that match. Returns the match starts. */
  function FindMarkers(body: string, from: nat): (ps: seq<int>)
    ensures forall i :: 0 <= i < |ps| ==> from <= ps[i] && ps[i] + |Marker| <= |body|
    decreases |body| - from
  {
    if from + |Marker| > |body| then []
    else if body[from..from + |Marker|] == Marker then [from] + FindMarkers(body, from + |Marker|)
    else FindMarkers(body, from + 1)
  }

  /** The scan finds every occurrence at or after `from`, and nothing else, in
      ascending order. */
  lemma {:induction false} FindMarkersExact(body: string, from: nat)
    ensures forall i, j :: 0 <= i < j < |FindMarkers(body, from)| ==>
      FindMarkers(body, from)[i] < FindMarkers(body, from)[j]
    ensures forall p :: p in FindMarkers(body, from) <==> from <= p && MarkerAt(body, p)
    decreases |body| - from
  {
    if from + |Marker| > |body| {
    } else if body[from..from + |Marker|] == Marker {
      FindMarkersExact(body, from + |Marker|);
      var rest := FindMarkers(body, from + |Marker|);
      assert forall i :: 0 <= i < |rest| ==> rest[i] in rest;
      var ps := [from] + rest;
      assert forall i :: 0 < i < |ps| ==> ps[i] == rest[i - 1];
      forall p | from < p < from + |Marker| ensures !MarkerAt(body, p) {
        if MarkerAt(body, p) { MarkersApart(body, from, p); }
      }
    } else {
      FindMarkersExact(body, from + 1);
    }
  }

  lemma {:induction false} AscendingCard(ps: seq<int>)
    requires forall i, j :: 0 <= i < j < |ps| ==> ps[i] < ps[j]
    ensures |set p | p in ps| == |ps|
  {
    if ps != [] {
      var rest := ps[1..];
      AscendingCard(rest);
      assert forall i :: 0 <= i < |rest| ==> rest[i] == ps[i + 1];
      assert (set p | p in ps) == {ps[0]} + (set p | p in rest);
      assert ps[0] !in (set p | p in rest);
    }
  }

  /** The number of matches the scan reports is the number of occurrences. */
  lemma MarkerCount(body: string)
    ensures |FindMarkers(body, 0)| == |MarkerPositions(body)|
  {
    var ps := FindMarkers(body, 0);
    FindMarkersExact(body, 0);
    AscendingCard(ps);
    assert (set p | p in ps) == MarkerPositions(body);
  }

  /** The text from `start` up to, not including, the next double quote; None where
      bytes.Index finds no quote and the slice in the source would panic. */
  function UntilQuote(body: string, start: nat): (r: Option<string>)
    requires start <= |body|
    ensures r.Some? ==> QuotedAt(body, start, r.value)
    ensures r.None? <==> Unclosed(body, start)
  {
    var k := Text.IndexOf(body[start..], '"');
    if k < 0 then
      assert forall j :: start <= j < |body| ==> body[j] == body[start..][j - start];
      None
    else Some(body[start..start + k])
  }

  /** A URL as the extraction uses it: everything before the first '?', and the
      query as url.Values, a map from key to the list of its values. */
  datatype Url = Url(base: string, query: map<string, seq<string>>)

  /** url.Values parsing of a raw query: pairs separated by '&', each split at its
      first '='; empty pairs and pairs holding ';' are dropped; repeated keys
      collect their values in order. */
  function ParseQuery(raw: string, acc: map<string, seq<string>>): (r: map<string, seq<string>>)
    ensures forall k :: k in acc ==> k in r && acc[k] <= r[k]
    decreases |raw|
  {
    if raw == [] then acc
    else
      var amp := Text.IndexOf(raw, '&');
      var pair := if amp < 0 then raw else raw[..amp];
      var rest := if amp < 0 then [] else raw[amp + 1..];
      var eq := Text.IndexOf(pair, '=');
      var key := if eq < 0 then pair else pair[..eq];
      var value := if eq < 0 then [] else pair[eq + 1..];
      var acc' := if pair == [] || Text.IndexOf(pair, ';') >= 0 then acc
                  else acc[key := (if key in acc then acc[key] else []) + [value]];
      ParseQuery(rest, acc')
  }

  /** The base is the text before the first '?', the query what follows it. */
  function ParseUrl(s: string): (u: Url)
    ensures |u.base| <= |s| && u.base == s[..|u.base|]
    ensures forall j :: 0 <= j < |u.base| ==> s[j] != '?'
    ensures |u.base| < |s| ==> s[|u.base|] == '?' && u.query == ParseQuery(s[|u.base| + 1..], map[])
    ensures |u.base| == |s| ==> u.query == map[]
  {
    var q := Text.IndexOf(s, '?');
    if q < 0 then Url(s, map[]) else Url(s[..q], ParseQuery(s[q + 1..], map[]))
  }

  /** params.Set("period", "day"): the only value of `period` becomes "day". */
  function ForceDayPeriod(u: Url): (r: Url)
    ensures r.base == u.base
    ensures "period" in r.query && r.query["period"] == ["day"]
    ensures forall k :: k != "period" ==> (k in r.query <==> k in u.query)
    ensures forall k :: k != "period" && k in u.query ==> r.query[k] == u.query[k]
  {
    u.(query := u.query["period" := ["day"]])
  }

  /** One export link: the origin, then the fragment, with period=day. */
  function ExportLink(fragment: string): Url {
    ForceDayPeriod(ParseUrl(Origin + fragment))
  }

  /** The origin holds no '?', so the link's base keeps all of it followed by the
      fragment up to its first '?', and `period` holds "day" alone. */
  lemma ExportLinkKeepsOrigin(fragment: string)
    ensures var r := ExportLink(fragment);
      && |Origin| <= |r.base| <= |Origin + fragment|
      && r.base == Origin + fragment[..|r.base| - |Origin|]
      && "period" in r.query && r.query["period"] == ["day"]
  {
    var s := Origin + fragment;
    var n := |ParseUrl(s).base|;
    OriginHasNoQuery();
    assert s[..n] == Origin + fragment[..n - |Origin|];
  }

  lemma OriginHasNoQuery()
    ensures NoneOf(Origin, '?')
  {
  }

  predicate NoneOf(s: string, c: char) {
    forall j :: 0 <= j < |s| ==> s[j] != c
  }

  /** A single pair "key=value" becomes one key holding one value. */
  lemma ParseQueryPair(key: string, value: string)
    requires NoneOf(key, '=') && NoneOf(key, '&') && NoneOf(key, ';')
    requires NoneOf(value, '&') && NoneOf(value, ';')
    ensures ParseQuery(key + "=" + value, map[]) == map[key := [value]]
  {
    var pair := key + "=" + value;
    var single := map[key := [value]];
    assert pair[..|key|] == key && pair[|key| + 1..] == value;
    assert NoneOf(pair, '&') && NoneOf(pair, ';') by {
      forall j | 0 <= j < |pair| ensures pair[j] != '&' && pair[j] != ';' {
        if j < |key| { assert pair[j] == key[j]; }
        else if j > |key| { assert pair[j] == value[j - |key| - 1]; }
      }
    }
    Text.IndexOfAbsent(pair, '&');
    Text.IndexOfAbsent(pair, ';');
    forall j | 0 <= j < |key| ensures pair[j] != '=' { assert pair[j] == key[j]; }
    Text.IndexOfFirst(pair, '=', |key|);
    var none: map<string, seq<string>> := map[];
    assert key !in none;
    var vs: seq<string> := [];
    assert vs + [value] == [value];
    assert none[key := vs + [value]] == single;
    assert ParseQuery(pair, none) == ParseQuery([], none[key := vs + [value]]);
  }

  /** A fragment without a query gets the query period=day and nothing else. */
  lemma ExportLinkWithoutQuery(fragment: string)
    requires NoneOf(fragment, '?')
    ensures ExportLink(fragment) == Url(Origin + fragment, map["period" := ["day"]])
  {
    var s := Origin + fragment;
    forall j | 0 <= j < |s| ensures s[j] != '?' {
      if j < |Origin| { assert s[j] == Origin[j]; } else { assert s[j] == fragment[j - |Origin|]; }
    }
    Text.IndexOfAbsent(s, '?');
  }

  /** A fragment with the query "key=value" keeps that pair, except that a `period`
      key has its value replaced by "day". */
  lemma ExportLinkWithPair(path: string, key: string, value: string)
    requires NoneOf(path, '?')
    requires NoneOf(key, '=') && NoneOf(key, '&') && NoneOf(key, ';')
    requires NoneOf(value, '&') && NoneOf(value, ';')
    ensures ExportLink(path + "?" + key + "=" + value)
      == Url(Origin + path, map[key := [value]]["period" := ["day"]])
  {
    var s := Origin + (path + "?" + key + "=" + value);
    var n := |Origin + path|;
    forall j | 0 <= j < n ensures s[j] != '?' {
      if j < |Origin| { assert s[j] == Origin[j]; } else { assert s[j] == path[j - |Origin|]; }
    }
    assert s[n] == '?';
    Text.IndexOfFirst(s, '?', n);
    assert s[..n] == Origin + path;
    assert s[n + 1..] == key + "=" + value;
    ParseQueryPair(key, value);
  }

  /** The fragment starting at `start`: the text up to the next double quote, which
      holds none itself. */
  predicate QuotedAt(body: string, start: int, fragment: string) {
    0 <= start && start + |fragment| < |body| && body[start..start + |fragment|] == fragment
    && body[start + |fragment|] == '"' && NoneOf(fragment, '"')
  }

  /** No double quote from `start` to the end of `body`. */
  predicate Unclosed(body: string, start: int) {
    forall j :: 0 <= start <= j < |body| ==> body[j] != '"'
  }

  /** The two fragments, stats first: the text after each of exactly two markers up
      to the next double quote. */
  function ExportFragments(body: string): (r: Result<(string, string)>)
    ensures r.Err? ==> r.error == IndexesCount || r.error == NoClosingQuote
    ensures r == Err(IndexesCount) <==> |FindMarkers(body, 0)| != 2
    ensures r == Err(NoClosingQuote) <==> var ps := FindMarkers(body, 0);
      |ps| == 2 && (Unclosed(body, ps[0] + |Marker|) || Unclosed(body, ps[1] + |Marker|))
    ensures r.Ok? ==> var ps := FindMarkers(body, 0);
      |ps| == 2 && QuotedAt(body, ps[0] + |Marker|, r.value.0) && QuotedAt(body, ps[1] + |Marker|, r.value.1)
  {
    var ps := FindMarkers(body, 0);
    if |ps| != 2 then Err(IndexesCount)
    else
      var stats := UntilQuote(body, ps[0] + |Marker|);
      var budget := UntilQuote(body, ps[1] + |Marker|);
      if stats.None? || budget.None? then Err(NoClosingQuote)
      else Ok((stats.value, budget.value))
  }

  /** The two links, stats first, or the failure of the extraction. */
  function ExtractExportLinks(body: string): (r: Result<(Url, Url)>)
    ensures r.Err? ==> r.error == IndexesCount || r.error == NoClosingQuote
  {
    match ExportFragments(body)
    case Err(e) => Err(e)
    case Ok(fragments) => Ok((ExportLink(fragments.0), ExportLink(fragments.1)))
  }

  /** The count check: anything but exactly two occurrences of the marker is
      refused with "indexes count != 2". */
  lemma ExtractNeedsTwoMarkers(body: string)
    ensures ExtractExportLinks(body) == Err(IndexesCount) <==> |MarkerPositions(body)| != 2
  {
    MarkerCount(body);
  }

  /** Given a second marker, a quote always follows the first one, since the second
      marker opens with a double quote: only the budget link can run to the end of
      the page without a closing quote. */
  lemma FirstLinkClosed(body: string, p0: int, p1: int)
    requires p0 < p1 && MarkerAt(body, p0) && MarkerAt(body, p1)
    ensures UntilQuote(body, p0 + |Marker|).Some?
  {
    MarkersApart(body, p0, p1);
    assert body[p1] == '"' by { assert body[p1..p1 + |Marker|][0] == body[p1]; }
  }

  lemma FindTwoMarkers(body: string, p0: int, p1: int)
    requires p0 < p1 && MarkerAt(body, p0) && MarkerAt(body, p1)
    requires forall p :: MarkerAt(body, p) ==> p == p0 || p == p1
    ensures FindMarkers(body, 0) == [p0, p1]
  {
    var ps := FindMarkers(body, 0);
    FindMarkersExact(body, 0);
    assert p0 in ps && p1 in ps;
    assert forall i :: 0 <= i < |ps| ==> ps[i] == p0 || ps[i] == p1 by {
      forall i | 0 <= i < |ps| ensures ps[i] == p0 || ps[i] == p1 {
        assert ps[i] in ps;
      }
    }
    var n := |ps|;
    assert n >= 2 && ps[0] == p0 && ps[n - 1] == p1;
    var second, last := ps[1], ps[n - 1];
    assert ps[0] < second;
    assert n - 1 > 1 ==> second < last;
  }

  /** With the marker at exactly p0 < p1, the extraction fails only when no double
      quote follows the second marker; otherwise the stats link is the fragment after
      p0 and the budget link the fragment after p1, each up to the next quote, both
      with period=day. */
  lemma ExtractWithMarkersAt(body: string, p0: int, p1: int)
    requires p0 < p1 && MarkerAt(body, p0) && MarkerAt(body, p1)
    requires forall p :: MarkerAt(body, p) ==> p == p0 || p == p1
    ensures var r := ExtractExportLinks(body);
      && (r.Err? <==> forall j :: p1 + |Marker| <= j < |body| ==> body[j] != '"')
      && (r.Err? ==> r.error == NoClosingQuote)
      && (r.Ok? ==>
            && r.value.0 == ExportLink(UntilQuote(body, p0 + |Marker|).value)
            && r.value.1 == ExportLink(UntilQuote(body, p1 + |Marker|).value)
            && r.value.0.query["period"] == ["day"]
            && r.value.1.query["period"] == ["day"])
  {
    FindTwoMarkers(body, p0, p1);
    FirstLinkClosed(body, p0, p1);
    FragmentsAt(body, p0, p1);
  }

  lemma FragmentsAt(body: string, p0: nat, p1: nat)
    requires FindMarkers(body, 0) == [p0, p1]
    requires p0 + |Marker| <= |body| && p1 + |Marker| <= |body|
    requires UntilQuote(body, p0 + |Marker|).Some?
    ensures var budget := UntilQuote(body, p1 + |Marker|);
      ExportFragments(body)
      == if budget.None? then Err(NoClosingQuote)
         else Ok((UntilQuote(body, p0 + |Marker|).value, budget.value))
  {    var ps := FindMarkers(body, 0);
    assert |ps| == 2;
  }
}

=== FILE: numeric.dfy ===
/**
  Number sanitising and parsing used by the reconciler: `onlyNumeric`
  (pkg/tgads/client.go), strconv.Atoi on 64-bit Go, and the decimal
  parser behind decimal.NewFromString, with exact rational values.
 */
module Numeric {
  import opened Outcome
  import Text

  predicate IsDigit(c: char) { '0' <= c <= '9' }

  predicate AllDigits(s: string) {
    forall i :: 0 <= i < |s| ==> IsDigit(s[i])
  }

  /** The digits of `s`, in their original order: what onlyNumeric computes. */
  function Digits(s: string): (r: string)
    ensures |r| <= |s|
    ensures AllDigits(r)
  {
    if s == [] then []
    else Digits(s[..|s| - 1]) + (if IsDigit(s[|s| - 1]) then [s[|s| - 1]] else [])
  }

  /** The positions in `s` that hold a digit, in ascending order. */
  function DigitPositions(s: string): (ps: seq<nat>)
    ensures forall i, j :: 0 <= i < j < |ps| ==> ps[i] < ps[j]
    ensures forall p :: p in ps <==> 0 <= p < |s| && IsDigit(s[p])
  {
    if s == [] then []
    else
      var init := s[..|s| - 1];
      assert forall p :: 0 <= p < |init| ==> init[p] == s[p];
      var ps := DigitPositions(init);
      assert forall i :: 0 <= i < |ps| ==> ps[i] in ps;
      ps + (if IsDigit(s[|s| - 1]) then [|s| - 1] else [])
  }

  /** onlyNumeric keeps exactly the digits of its input, each in its place in the
      input order: output character i is the input character at the i-th digit
      position. */
  lemma {:induction false} DigitsAreSelected(s: string)
    ensures |Digits(s)| == |DigitPositions(s)|
    ensures forall i :: 0 <= i < |Digits(s)| ==>
      DigitPositions(s)[i] < |s| && Digits(s)[i] == s[DigitPositions(s)[i]]
  {
    if s != [] {
      var init := s[..|s| - 1];
      DigitsAreSelected(init);
      assert forall p :: 0 <= p < |init| ==> init[p] == s[p];
    }
  }

  lemma {:induction false} DigitsOfDigits(s: string)
    requires AllDigits(s)
    ensures Digits(s) == s
  {
    if s != [] {
      DigitsOfDigits(s[..|s| - 1]);
    }
  }

  /** Applying onlyNumeric twice is applying it once. */
  lemma DigitsIdempotent(s: string)
    ensures Digits(Digits(s)) == Digits(s)
  {
    DigitsOfDigits(Digits(s));
  }

  /** The thousands separator disappears: "1,234" becomes "1234". */
  lemma DigitsExample()
    ensures Digits("1,234") == "1234"
  {
    assert "1,234"[..4] == "1,23" && "1,23"[..3] == "1,2" && "1,2"[..2] == "1," && "1,"[..1] == "1";
    assert "1"[..0] == "";
  }

  /** onlyNumeric, as the loop in the source writes it. */
  method OnlyNumeric(input: string) returns (out: string)
    ensures out == Digits(input)
  {
    out := "";
    for i := 0 to |input|
      invariant out == Digits(input[..i])
    {
      assert input[..i + 1][..i] == input[..i];
      if IsDigit(input[i]) {
        out := out + [input[i]];
      }
    }
    assert input[..|input|] == input;
  }

  function DigitValue(c: char): nat
    requires IsDigit(c)
  {
    (c as int) - ('0' as int)
  }

  function Pow10(n: nat): (p: nat)
    ensures p >= 1
  {
    if n == 0 then 1 else 10 * Pow10(n - 1)
  }

  /** The value of a string of decimal digits (leading zeros allowed). */
  function DecValue(s: string): nat
    requires AllDigits(s)
  {
    if s == [] then 0 else 10 * DecValue(s[..|s| - 1]) + DigitValue(s[|s| - 1])
  }

  lemma {:induction false} DecValueAppend(a: string, b: string)
    requires AllDigits(a) && AllDigits(b)
    ensures AllDigits(a + b)
    ensures DecValue(a + b) == DecValue(a) * Pow10(|b|) + DecValue(b)
  {
    if b != [] {
      var b' := b[..|b| - 1];
      var ab := a + b;
      assert ab[..|ab| - 1] == a + b';
      assert ab[|ab| - 1] == b[|b| - 1];
      DecValueAppend(a, b');
      var x, p, y, d := DecValue(a), Pow10(|b'|), DecValue(b'), DigitValue(b[|b| - 1]);
      assert DecValue(ab) == 10 * DecValue(a + b') + d;
      assert DecValue(b) == 10 * y + d;
      assert Pow10(|b|) == 10 * p;
      ScaleStep(x, p, y, d);
    } else {
      assert a + b == a;
    }
  }

  lemma ScaleStep(x: int, p: int, y: int, d: int)
    ensures 10 * (x * p + y) + d == x * (10 * p) + (10 * y + d)
  {
  }

  function DigitChar(d: nat): (c: char)
    requires d < 10
    ensures IsDigit(c) && DigitValue(c) == d
  {
    ('0' as int + d) as char
  }

  /** strconv.Itoa for a non-negative value: the reference rendering of a count. */
  function NatString(n: nat): (s: string)
    ensures s != [] && AllDigits(s) && DecValue(s) == n
  {
    if n < 10 then [DigitChar(n)]
    else
      var s := NatString(n / 10) + [DigitChar(n % 10)];
      assert s[..|s| - 1] == NatString(n / 10);
      s
  }

  /** An optional sign followed by one or more digits, of any size. */
  function SignedDigits(s: string): (r: Option<int>)
    ensures AllDigits(s) ==> r == (if s == [] then None else Some(DecValue(s) as int))
  {
    var body := if s != [] && (s[0] == '+' || s[0] == '-') then s[1..] else s;
    if body == [] || !AllDigits(body) then None
    else Some(if s[0] == '-' then -(DecValue(body) as int) else DecValue(body) as int)
  }

  const MaxInt64: int := 0x7FFF_FFFF_FFFF_FFFF
  const MinInt64: int := -0x8000_0000_0000_0000

  /** strconv.Atoi on a 64-bit platform. */
  function Atoi(s: string): (r: Result<int>)
    ensures r.Ok? ==> MinInt64 <= r.value <= MaxInt64
    ensures r.Err? ==> r.error == BadInt || r.error == IntRange
  {
    match SignedDigits(s)
    case None => Err(BadInt)
    case Some(v) => if v < MinInt64 || v > MaxInt64 then Err(IntRange) else Ok(v)
  }

  /** What the reconciler sees: Atoi of onlyNumeric's output fails exactly when the
      cell has no digit or its digits overflow int64, and otherwise yields the
      non-negative value of those digits. */
  lemma AtoiOfDigits(cell: string)
    ensures var d := Digits(cell);
      Atoi(d) == (if d == [] then Err(BadInt)
                  else if DecValue(d) > MaxInt64 then Err(IntRange)
                  else Ok(DecValue(d)))
  {
  }

  /** Atoi inverts the decimal rendering of every non-negative int64. */
  lemma AtoiOfNatString(n: nat)
    requires n <= MaxInt64
    ensures Atoi(NatString(n)) == Ok(n)
  {
  }

  /** decimal.NewFromString without exponent notation: at most one '.', and the
      digits with the point removed form an optionally signed integer that the
      point scales down. */
  function ParseDecimal(s: string): (r: Result<real>)
    ensures r.Err? ==> r.error == BadDecimal
  {
    var p := Text.IndexOf(s, '.');
    if p >= 0 && Text.IndexOf(s[p + 1..], '.') >= 0 then Err(BadDecimal)
    else
      var coefficient := if p < 0 then s else s[..p] + s[p + 1..];
      var scale := if p < 0 then 0 else |s| - p - 1;
      match SignedDigits(coefficient)
      case None => Err(BadDecimal)
      case Some(c) => Ok(c as real / Pow10(scale) as real)
  }

  /** An amount without a point is read as the integer its digits spell. */
  lemma DecimalOfInteger(a: string)
    requires AllDigits(a) && a != []
    ensures ParseDecimal(a) == Ok(DecValue(a) as real)
  {
    forall j | 0 <= j < |a|
      ensures a[j] != '.'
    {
      assert IsDigit(a[j]);
    }
    Text.IndexOfAbsent(a, '.');
  }

  /** A second point is refused. */
  lemma DecimalTwoPoints(s: string, i: int, k: int)
    requires 0 <= i < k < |s| && s[i] == '.' && s[k] == '.'
    ensures ParseDecimal(s) == Err(BadDecimal)
  {
    var p := Text.IndexOf(s, '.');
    assert 0 <= p <= i;
    assert s[p + 1..][k - p - 1] == '.';
  }

  /** Without a point, any character other than a leading sign and digits is
      refused. */
  lemma DecimalRejectsNonDigit(s: string, i: int)
    requires forall j :: 0 <= j < |s| ==> s[j] != '.'
    requires 0 <= i < |s| && !IsDigit(s[i])
    requires i == 0 ==> s[0] != '+' && s[0] != '-'
    ensures ParseDecimal(s) == Err(BadDecimal)
  {
    Text.IndexOfAbsent(s, '.');
    if s[0] == '+' || s[0] == '-' {
      assert s[1..][i - 1] == s[i];
    }
  }

  /** In "a.b" with digit strings a and b, the only point is the one after a. */
  lemma PointAt(a: string, b: string)
    requires AllDigits(a) && AllDigits(b)
    ensures Text.IndexOf(a + "." + b, '.') == |a|
    ensures (a + "." + b)[|a| + 1..] == b && Text.IndexOf(b, '.') < 0
    ensures (a + "." + b)[..|a|] + (a + "." + b)[|a| + 1..] == a + b
  {
    var s := a + "." + b;
    assert s[..|a|] == a;
    assert s[|a| + 1..] == b;
    forall j | 0 <= j < |a|
      ensures s[j] != '.'
    {
      assert s[j] == a[j] && IsDigit(a[j]);
    }
    Text.IndexOfFirst(s, '.', |a|);
    forall j | 0 <= j < |b|
      ensures b[j] != '.'
    {
      assert IsDigit(b[j]);
    }
    Text.IndexOfAbsent(b, '.');
  }

  /** A plain decimal "a.b" of digit strings has the value a + b / 10^|b|. */
  lemma DecimalOfDigits(a: string, b: string)
    requires AllDigits(a) && AllDigits(b) && |a| + |b| > 0
    ensures ParseDecimal(a + "." + b)
         == Ok((DecValue(a) * Pow10(|b|) + DecValue(b)) as real / Pow10(|b|) as real)
  {
    DecValueAppend(a, b);
    PointAt(a, b);
    var s := a + "." + b;
    var p := Text.IndexOf(s, '.');
    assert p == |a| && |s| - p - 1 == |b|;
    assert s[..p] + s[p + 1..] == a + b;
    var c := DecValue(a + b);
    assert SignedDigits(a + b) == Some(c as int);
    assert ParseDecimal(s) == Ok((c as int) as real / Pow10(|b|) as real);
    var v := DecValue(a) * Pow10(|b|) + DecValue(b);
    assert (c as int) as real == v as real;
  }

  /** A locale-comma amount "a,b" of digit strings is read as a + b / 10^|b|:
      after the comma becomes a point it is the plain decimal "a.b". */
  lemma DecimalOfCommaDigits(a: string, b: string)
    requires AllDigits(a) && AllDigits(b) && |a| + |b| > 0
    ensures ParseDecimal(Text.CommaToPoint(a + "," + b))
         == Ok((DecValue(a) * Pow10(|b|) + DecValue(b)) as real / Pow10(|b|) as real)
  {
    var s := a + "," + b;
    var r := Text.CommaToPoint(s);
    var p := a + "." + b;
    forall i | 0 <= i < |s|
      ensures r[i] == p[i]
    {
      if i < |a| {
        assert s[i] == a[i] && p[i] == a[i];
      } else if i > |a| {
        assert s[i] == b[i - |a| - 1] && p[i] == b[i - |a| - 1];
      }
    }
    assert r == p;
    DecimalOfDigits(a, b);
  }
}

=== FILE: outcome.dfy ===
/**
  Failure-carrying values shared by the whole model, and the one error
  type whose constructors name every error the scraper and the storage
  layer can report.  A Go panic (a slice or index out of range) is a
  distinct constructor here rather than a precondition, so that every
  input has a defined outcome.
 */
module Outcome {

  datatype Option<+T> = None | Some(value: T)

  datatype Result<+T> = Ok(value: T) | Err(error: Error)

  datatype Error =
    // pkg/tgads: fetching and page checks
    | FetchFailed            // transport error or undecodable page
    | CampaignNotFound       // "campaign not found"
    | InvalidLink            // "invalid link"
    | MissingAdLink          // "cant get link"
    | HtmlRenderFailed       // error returned by the description's Html()
    | IndexesCount           // "indexes count != 2"
    | NoClosingQuote         // panic: bytes.Index returned -1 and the slice bound went negative
    // pkg/tgads: tab-separated exports
    | StatusNot200           // "status code is not 200"
    | ContentTypeNotCsv      // "content type is not csv"
    | MalformedTable         // error from the tabular reader
    // pkg/tgads: reconciliation
    | StatsCols              // "stats table cols != 4"
    | BudgetCols             // "budget table cols != 3"
    | RowTooShort            // panic: row[k] index out of range
    | BudgetRowWithoutStat   // panic: res[i] index out of range
    | InvalidDatetime        // "invalid datetime"
    | BadDate                // time.Parse failure
    | BadInt                 // strconv.Atoi syntax error
    | IntRange               // strconv.Atoi range error
    | BadDecimal             // decimal.NewFromString failure
    // internal/repository: the statement executed by Postgres
    | RaggedBatch            // the parallel arrays differ in length
    | DateCastFailed         // a text element does not cast to date
    | IntegerOutOfRange      // an element does not fit the 32-bit ::int cast
    | DuplicateBatchKey      // ON CONFLICT DO UPDATE would touch one row twice
}

=== FILE: reconcile.dfy ===
/**
  GetStats (pkg/tgads/client.go): the daily statistics export and the daily
  budget export of one campaign, each a tab-separated table with a header
  row, merged into one record per day.  The stats table gives the date and
  the view, click and action counts; the budget table, row for row, gives
  the amount spent that day, from which the cost per thousand views
  follows.  Every panic of the source (a short row, a budget row with no
  record to price) is a distinct error here, and on every error the records
  built so far are returned with it, as the source does.
 */
module Reconcile {
  import opened Outcome
  import Text
  import opened Numeric
  import opened Dates

  /** One day of a campaign. Decimal amounts are exact. */
  datatype Stats = Stats(date: CalendarDate, views: int, clicks: int, actions: int, spend: real, cpm: real)

  /** A parsed export: records of fields, the first record being the header. */
  type Table = seq<seq<string>>

  /** What an export request returns: the status, the Content-Type header, and the
      body read as tab-separated records, None when the reader refuses it. */
  datatype Response = Response(status: int, contentType: string, table: Option<Table>)

  /** Records built so far, and the error that stopped the work, if any. */
  datatype Partial = Partial(records: seq<Stats>, err: Option<Error>)

  const ContentTypeCsv: string := "text/csv"

  /** getTsv: a transport error, then the status, then the exact Content-Type, and
      only then the table. */
  function GetTsv(fetched: Result<Response>): (r: Result<Table>)
    ensures r.Ok? <==> fetched.Ok? && fetched.value.status == 200
                       && fetched.value.contentType == ContentTypeCsv && fetched.value.table.Some?
    ensures r.Ok? ==> r.value == fetched.value.table.value
    ensures fetched.Ok? && fetched.value.status != 200 ==> r == Err(StatusNot200)
    ensures fetched.Ok? && fetched.value.status == 200 && fetched.value.contentType != ContentTypeCsv ==>
      r == Err(ContentTypeNotCsv)
  {
    match fetched
    case Err(e) => Err(e)
    case Ok(resp) =>
      if resp.status != 200 then Err(StatusNot200)
      else if resp.contentType != ContentTypeCsv then Err(ContentTypeNotCsv)
      else if resp.table.None? then Err(MalformedTable)
      else Ok(resp.table.value)
  }

  /** A count cell: Atoi of its digits. It succeeds exactly when the cell has a
      digit and the digits fit int64, and then it is the value of those digits. */
  function ParseCount(cell: string): (r: Result<int>)
    ensures r.Ok? <==> Digits(cell) != [] && DecValue(Digits(cell)) <= MaxInt64
    ensures r.Ok? ==> r.value == DecValue(Digits(cell))
    ensures r.Err? ==> r.error == BadInt || r.error == IntRange
  {
    AtoiOfDigits(cell);
    Atoi(Digits(cell))
  }

  /** One data row of the stats table: the date, then views, clicks and actions,
      each field read only after the previous one succeeded. */
  function ParseStatsRow(row: seq<string>): (r: Result<Stats>)
    ensures r.Ok? <==> |row| >= 4 && ParseDate(row[0]).Ok?
                       && ParseCount(row[1]).Ok? && ParseCount(row[2]).Ok? && ParseCount(row[3]).Ok?
    ensures r.Ok? ==>
      && TelegramFormat(r.value.date) == row[0]
      && r.value.views == DecValue(Digits(row[1]))
      && r.value.clicks == DecValue(Digits(row[2]))
      && r.value.actions == DecValue(Digits(row[3]))
      && r.value.spend == 0.0 && r.value.cpm == 0.0
    ensures r.Err? ==> r.error in {RowTooShort, BadDate, BadInt, IntRange}
  {
    if |row| < 1 then Err(RowTooShort)
    else match ParseDate(row[0])
    case Err(e) => Err(e)
    case Ok(date) =>
      if |row| < 2 then Err(RowTooShort)
      else match ParseCount(row[1])
      case Err(e) => Err(e)
      case Ok(views) =>
        if |row| < 3 then Err(RowTooShort)
        else match ParseCount(row[2])
        case Err(e) => Err(e)
        case Ok(clicks) =>
          if |row| < 4 then Err(RowTooShort)
          else match ParseCount(row[3])
          case Err(e) => Err(e)
          case Ok(actions) => Ok(Stats(date, views, clicks, actions, 0.0, 0.0))
  }

  /** Every data row read as a stats row. */
  function ParseRows(rows: seq<seq<string>>): (ps: seq<Result<Stats>>)
    ensures |ps| == |rows|
    ensures forall i :: 0 <= i < |rows| ==> ps[i] == ParseStatsRow(rows[i])
  {
    seq(|rows|, i requires 0 <= i < |rows| => ParseStatsRow(rows[i]))
  }

  /** The stats loop from data row k on, with `acc` already built: each parsed row
      is appended until the first that failed. */
  function CollectFrom(ps: seq<Result<Stats>>, k: nat, acc: seq<Stats>): Partial
    requires k <= |ps|
    decreases |ps| - k
  {
    if k == |ps| then Partial(acc, None)
    else match ps[k]
    case Err(e) => Partial(acc, Some(e))
    case Ok(s) => CollectFrom(ps, k + 1, acc + [s])
  }

  /** The records of a stats table: none for a table without data rows, an error for
      a header of more than four cells, otherwise one per data row until the first
      row that fails. */
  function StatsRecords(t: Table): Partial {
    if |t| <= 1 then Partial([], None)
    else if |t[0]| > 4 then Partial([], Some(StatsCols))
    else CollectFrom(ParseRows(t[1..]), 0, [])
  }

  lemma {:induction false} CollectFromSpec(ps: seq<Result<Stats>>, k: nat, acc: seq<Stats>)
    requires k <= |ps|
    ensures var r := CollectFrom(ps, k, acc);
      && |acc| <= |r.records| <= |acc| + |ps| - k
      && r.records[..|acc|] == acc
      && (forall i :: |acc| <= i < |r.records| ==> ps[k + i - |acc|] == Ok(r.records[i]))
      && (r.err.None? <==> |r.records| == |acc| + |ps| - k)
      && (r.err.Some? ==> ps[k + |r.records| - |acc|] == Err(r.err.value))
    decreases |ps| - k
  {
    if k < |ps| && ps[k].Ok? {
      var acc' := acc + [ps[k].value];
      CollectFromSpec(ps, k + 1, acc');
      var r := CollectFrom(ps, k, acc);
      assert r == CollectFrom(ps, k + 1, acc');
      assert r.records[..|acc|] == r.records[..|acc'|][..|acc|];
    }
  }

  /** The stats half of GetStats: the records are exactly the parses of the data
      rows, in row order, up to the first row that fails, and that row's failure is
      the error. */
  lemma StatsRecordsSpec(t: Table)
    ensures var r := StatsRecords(t);
      && (|t| <= 1 ==> r == Partial([], None))
      && (|t| > 1 && |t[0]| > 4 ==> r == Partial([], Some(StatsCols)))
      && (|t| > 1 && |t[0]| <= 4 ==>
            && |r.records| <= |t| - 1
            && (forall i :: 0 <= i < |r.records| ==> ParseStatsRow(t[i + 1]) == Ok(r.records[i]))
            && (r.err.None? <==> |r.records| == |t| - 1)
            && (r.err.Some? ==> ParseStatsRow(t[|r.records| + 1]) == Err(r.err.value)))
  {
    if |t| > 1 && |t[0]| <= 4 {
      var rows := t[1..];
      assert StatsRecords(t) == CollectFrom(ParseRows(rows), 0, []);
      CollectRowsSpec(rows);
      assert forall i :: 0 <= i < |rows| ==> rows[i] == t[i + 1];
    }
  }

  /** The stats loop over the data rows, stated in terms of the rows themselves. */
  lemma CollectRowsSpec(rows: seq<seq<string>>)
    ensures var r := CollectFrom(ParseRows(rows), 0, []);
      && |r.records| <= |rows|
      && (forall i :: 0 <= i < |r.records| ==> ParseStatsRow(rows[i]) == Ok(r.records[i]))
      && (r.err.None? <==> |r.records| == |rows|)
      && (r.err.Some? ==> ParseStatsRow(rows[|r.records|]) == Err(r.err.value))
  {
    CollectFromStart(ParseRows(rows));
  }

  /** The stats loop from the first data row, on any parses. */
  lemma CollectFromStart(ps: seq<Result<Stats>>)
    ensures var r := CollectFrom(ps, 0, []);
      && |r.records| <= |ps|
      && (forall i :: 0 <= i < |r.records| ==> ps[i] == Ok(r.records[i]))
      && (r.err.None? <==> |r.records| == |ps|)
      && (r.err.Some? ==> ps[|r.records|] == Err(r.err.value))
  {
    CollectFromSpec(ps, 0, []);
  }

  /** Cost per thousand views; a day without views divides by one. */
  function Cpm(spend: real, views: int): (r: real)
    ensures views > 0 ==> r * (views as real) == spend * 1000.0
    ensures views <= 0 ==> r == spend * 1000.0
  {
    if views > 0 then spend * 1000.0 / (views as real) else spend * 1000.0 / 1.0
  }

  lemma CpmExamples()
    ensures Cpm(12.5, 500) == 25.0
    ensures Cpm(3.0, 0) == 3000.0
  {
  }

  /** Everything but spend and cpm agrees: the budget never touches these. */
  predicate SameCounts(a: Stats, b: Stats) {
    a.date == b.date && a.views == b.views && a.clicks == b.clicks && a.actions == b.actions
  }

  /** A record once its budget row is applied. */
  function Priced(s: Stats, spend: real): (p: Stats)
    ensures SameCounts(p, s) && p.spend == spend
    ensures s.views > 0 ==> p.cpm * (s.views as real) == spend * 1000.0
    ensures s.views <= 0 ==> p.cpm == spend * 1000.0
  {
    s.(spend := spend, cpm := Cpm(spend, s.views))
  }

  /** A budget data row as the loop reads it: the date of its first field
      (RowTooShort when there is none) and, when there is a second field, the
      amount it holds with the decimal comma read as a point. */
  datatype BudgetRow = BudgetRow(date: Result<CalendarDate>, amount: Option<Result<real>>)

  function ReadBudgetRow(row: seq<string>): (b: BudgetRow)
    ensures |row| >= 1 ==> b.date == ParseDate(row[0])
    ensures b.amount.Some? <==> |row| >= 2
    ensures |row| >= 2 ==> b.amount.value == ParseDecimal(Text.CommaToPoint(row[1]))
  {
    BudgetRow(if |row| < 1 then Err(RowTooShort) else ParseDate(row[0]),
              if |row| < 2 then None else Some(ParseDecimal(Text.CommaToPoint(row[1]))))
  }

  /** What the reading means for a budget row as the export writes it: a date in the
      "02 Jan 2006" layout, then an amount "a,b" with a decimal comma. */
  lemma ReadBudgetRowOfExport(d: CalendarDate, a: string, b: string, rest: seq<string>)
    requires AllDigits(a) && AllDigits(b) && |a| + |b| > 0
    ensures ReadBudgetRow([TelegramFormat(d), a + "," + b] + rest)
      == BudgetRow(Ok(d), Some(Ok((DecValue(a) * Pow10(|b|) + DecValue(b)) as real / Pow10(|b|) as real)))
  {
    var row := [TelegramFormat(d), a + "," + b] + rest;
    assert row[0] == TelegramFormat(d) && row[1] == a + "," + b;
    ParseTelegramFormat(d);
    DecimalOfCommaDigits(a, b);
  }

  function ReadBudgetRows(rows: seq<seq<string>>): (bs: seq<BudgetRow>)
    ensures |bs| == |rows|
    ensures forall i :: 0 <= i < |rows| ==> bs[i] == ReadBudgetRow(rows[i])
  {
    seq(|rows|, i requires 0 <= i < |rows| => ReadBudgetRow(rows[i]))
  }

  /** A budget row that prices record `s`: the same date and an amount that parses. */
  predicate Aligned(b: BudgetRow, s: Stats) {
    b.date == Ok(s.date) && b.amount.Some? && b.amount.value.Ok?
  }

  /** Budget row `b` applied to record i. Only record i can change, and only its
      spend and cpm. The step succeeds exactly when the record exists and the row is
      aligned with it. An amount that does not parse leaves the record's spend zero,
      since the zero decimal returned with the parse error is stored before the
      error is looked at. */
  function BudgetStep(recs: seq<Stats>, b: BudgetRow, i: nat): (r: Partial)
    ensures |r.records| == |recs|
    ensures forall j :: 0 <= j < |recs| && j != i ==> r.records[j] == recs[j]
    ensures forall j :: 0 <= j < |recs| ==> SameCounts(r.records[j], recs[j])
    ensures r.err.None? <==> i < |recs| && Aligned(b, recs[i])
    ensures r.err.None? ==>
      i < |recs| && Aligned(b, recs[i]) && r.records[i] == Priced(recs[i], b.amount.value.value)
    ensures b.date.Err? ==> r == Partial(recs, Some(b.date.error))
    ensures b.date.Ok? && i >= |recs| ==> r == Partial(recs, Some(BudgetRowWithoutStat))
    ensures b.date.Ok? && i < |recs| && b.date.value != recs[i].date ==> r == Partial(recs, Some(InvalidDatetime))
    ensures i < |recs| && b.date == Ok(recs[i].date) && b.amount.None? ==> r == Partial(recs, Some(RowTooShort))
    ensures i < |recs| && b.date == Ok(recs[i].date) && b.amount.Some? && b.amount.value.Err? ==>
      r == Partial(recs[i := recs[i].(spend := 0.0)], Some(b.amount.value.error))
  {
    match b.date
    case Err(e) => Partial(recs, Some(e))
    case Ok(date) =>
      if i >= |recs| then Partial(recs, Some(BudgetRowWithoutStat))
      else if recs[i].date != date then Partial(recs, Some(InvalidDatetime))
      else match b.amount
        case None => Partial(recs, Some(RowTooShort))
        case Some(Err(e)) => Partial(recs[i := recs[i].(spend := 0.0)], Some(e))
        case Some(Ok(spend)) => Partial(recs[i := Priced(recs[i], spend)], None)
  }

  /** The budget loop from data row k on: data row i prices record i. */
  function BudgetFrom(bs: seq<BudgetRow>, k: nat, recs: seq<Stats>): Partial
    requires k <= |bs|
    decreases |bs| - k
  {
    if k == |bs| then Partial(recs, None)
    else
      var r := BudgetStep(recs, bs[k], k);
      if r.err.Some? then r else BudgetFrom(bs, k + 1, r.records)
  }

  /** The budget half of GetStats. */
  function ApplyBudget(t: Table, recs: seq<Stats>): Partial {
    if |t| <= 1 then Partial(recs, None)
    else if |t[0]| > 3 then Partial(recs, Some(BudgetCols))
    else BudgetFrom(ReadBudgetRows(t[1..]), 0, recs)
  }

  lemma {:induction false} BudgetFromSpec(bs: seq<BudgetRow>, k: nat, recs: seq<Stats>)
    requires k <= |bs|
    ensures var r := BudgetFrom(bs, k, recs);
      && |r.records| == |recs|
      && (forall j :: 0 <= j < |recs| ==> SameCounts(r.records[j], recs[j]))
      && (forall j :: 0 <= j < |recs| && (j < k || j >= |bs|) ==> r.records[j] == recs[j])
      && (r.err.None? <==> (k == |bs| || |bs| <= |recs|) && forall j :: k <= j < |bs| ==> Aligned(bs[j], recs[j]))
      && (r.err.None? ==> forall j :: k <= j < |bs| ==> r.records[j] == Priced(recs[j], bs[j].amount.value.value))
    decreases |bs| - k
  {
    if k < |bs| {
      var s := BudgetStep(recs, bs[k], k);
      if s.err.None? {
        BudgetFromSpec(bs, k + 1, s.records);
        forall j | k < j < |bs| && j < |recs|
          ensures Aligned(bs[j], s.records[j]) == Aligned(bs[j], recs[j])
        {
          assert s.records[j] == recs[j];
        }
        assert Aligned(bs[k], recs[k]);
        if |bs| <= |recs| {
          assert (forall j :: k < j < |bs| ==> Aligned(bs[j], s.records[j]))
             <==> (forall j :: k < j < |bs| ==> Aligned(bs[j], recs[j]));
        }
      } else if k < |recs| {
        assert !Aligned(bs[k], recs[k]);
      }
    }
  }

  /** What the budget table does to the records: it never changes their dates or
      counts, nor any record past its last data row. It succeeds exactly when it has
      no more data rows than there are records and each of its data rows is aligned
      with the record of the same index, and then each of those records carries the
      row's amount and the matching cpm. */
  lemma ApplyBudgetSpec(t: Table, recs: seq<Stats>)
    ensures var r := ApplyBudget(t, recs);
      && |r.records| == |recs|
      && (forall j :: 0 <= j < |recs| ==> SameCounts(r.records[j], recs[j]))
      && (|t| <= 1 ==> r == Partial(recs, None))
      && (|t| > 1 && |t[0]| > 3 ==> r == Partial(recs, Some(BudgetCols)))
      && (|t| > 1 && |t[0]| <= 3 ==>
            && (forall j :: |t| - 1 <= j < |recs| ==> r.records[j] == recs[j])
            && (r.err.None? <==>
                  |t| - 1 <= |recs| && forall j :: 0 <= j < |t| - 1 ==> Aligned(ReadBudgetRow(t[j + 1]), recs[j]))
            && (r.err.None? ==> forall j :: 0 <= j < |t| - 1 ==>
                  r.records[j] == Priced(recs[j], ReadBudgetRow(t[j + 1]).amount.value.value)))
  {
    if |t| > 1 && |t[0]| <= 3 {
      var rows := t[1..];
      BudgetRowsSpec(rows, recs);
      assert forall j :: 0 <= j < |rows| ==> rows[j] == t[j + 1];
    }
  }

  /** The budget loop over the data rows, stated in terms of the rows themselves. */
  lemma BudgetRowsSpec(rows: seq<seq<string>>, recs: seq<Stats>)
    ensures var r := BudgetFrom(ReadBudgetRows(rows), 0, recs);
      && |r.records| == |recs|
      && (forall j :: 0 <= j < |recs| ==> SameCounts(r.records[j], recs[j]))
      && (forall j :: |rows| <= j < |recs| ==> r.records[j] == recs[j])
      && (r.err.None? <==>
            |rows| <= |recs| && forall j :: 0 <= j < |rows| ==> Aligned(ReadBudgetRow(rows[j]), recs[j]))
      && (r.err.None? ==> forall j :: 0 <= j < |rows| ==>
            r.records[j] == Priced(recs[j], ReadBudgetRow(rows[j]).amount.value.value))
  {
    BudgetFromSpec(ReadBudgetRows(rows), 0, recs);
  }

  /** A step's verdict depends on the record it prices and on nothing else. */
  lemma BudgetStepLocal(recs: seq<Stats>, recs': seq<Stats>, b: BudgetRow, i: nat)
    requires |recs| == |recs'| && (i < |recs| ==> recs[i] == recs'[i])
    ensures BudgetStep(recs, b, i).err == BudgetStep(recs', b, i).err
    ensures i < |recs| ==> BudgetStep(recs, b, i).records[i] == BudgetStep(recs', b, i).records[i]
  {
  }

  lemma {:induction false} FirstFailingBudgetRow(bs: seq<BudgetRow>, k: nat, recs: seq<Stats>, j: nat)
    requires k <= j < |bs| && j <= |recs|
    requires forall m :: k <= m < j ==> Aligned(bs[m], recs[m])
    requires BudgetStep(recs, bs[j], j).err.Some?
    ensures var r, step := BudgetFrom(bs, k, recs), BudgetStep(recs, bs[j], j);
      && r.err == step.err
      && |r.records| == |recs|
      && (forall m :: k <= m < j ==>
            Aligned(bs[m], recs[m]) && r.records[m] == Priced(recs[m], bs[m].amount.value.value))
      && (forall m :: 0 <= m < |recs| && (m < k || j < m) ==> r.records[m] == recs[m])
      && (j < |recs| ==> r.records[j] == step.records[j])
    decreases |bs| - k
  {
    if k < j {
      var s := BudgetStep(recs, bs[k], k);
      forall m | k < m < j
        ensures Aligned(bs[m], s.records[m])
      {
        assert s.records[m] == recs[m];
      }
      BudgetStepLocal(recs, s.records, bs[j], j);
      FirstFailingBudgetRow(bs, k + 1, s.records, j);
      assert s.records[k] == Priced(recs[k], bs[k].amount.value.value);
    }
  }

  /** The record a failing budget step leaves behind: its spend zeroed when the row's
      date matches and it has an amount (which then did not parse), unchanged
      otherwise. */
  function FailedRecord(s: Stats, b: BudgetRow): Stats {
    if b.date == Ok(s.date) && b.amount.Some? then s.(spend := 0.0) else s
  }

  lemma FailedStepRecord(recs: seq<Stats>, b: BudgetRow, j: nat)
    requires j < |recs| && BudgetStep(recs, b, j).err.Some?
    ensures BudgetStep(recs, b, j).records[j] == FailedRecord(recs[j], b)
  {
  }

  /** The first budget data row that fails decides the error: a row without a date,
      a row with no record to price (the budget table is longer than the stats
      table), a date that differs from its record's, a missing or unreadable
      amount.
      The records come back as far as the loop got: the earlier ones priced, the
      failing one as `FailedRecord` leaves it, the later ones untouched. */
  lemma ApplyBudgetFailsAt(t: Table, recs: seq<Stats>, j: nat)
    requires |t| > 1 && |t[0]| <= 3 && j + 1 < |t| && j <= |recs|
    requires forall m :: 0 <= m < j ==> Aligned(ReadBudgetRow(t[m + 1]), recs[m])
    requires BudgetStep(recs, ReadBudgetRow(t[j + 1]), j).err.Some?
    ensures var r, b := ApplyBudget(t, recs), ReadBudgetRow(t[j + 1]);
      && r.err == BudgetStep(recs, b, j).err
      && |r.records| == |recs|
      && (forall m :: 0 <= m < j ==>
            Aligned(ReadBudgetRow(t[m + 1]), recs[m])
            && r.records[m] == Priced(recs[m], ReadBudgetRow(t[m + 1]).amount.value.value))
      && (forall m :: j < m < |recs| ==> r.records[m] == recs[m])
      && (j < |recs| ==> r.records[j] == FailedRecord(recs[j], b))
  {
    var bs := ReadBudgetRows(t[1..]);
    forall m | 0 <= m < j
      ensures Aligned(bs[m], recs[m])
    {
      assert bs[m] == ReadBudgetRow(t[m + 1]);
    }
    assert bs[j] == ReadBudgetRow(t[j + 1]);
    assert ApplyBudget(t, recs) == BudgetFrom(bs, 0, recs);
    FirstFailingBudgetRow(bs, 0, recs, j);
    if j < |recs| {
      FailedStepRecord(recs, bs[j], j);
    }
  }

  /** A budget table with more data rows than there are records, all dated like the
      records they meet, stops on the first row without a record. */
  lemma BudgetLongerThanStats(t: Table, recs: seq<Stats>)
    requires |t| > 1 && |t[0]| <= 3 && |recs| + 1 < |t|
    requires forall m :: 0 <= m < |recs| ==> Aligned(ReadBudgetRow(t[m + 1]), recs[m])
    requires |t[|recs| + 1]| >= 1 && ParseDate(t[|recs| + 1][0]).Ok?
    ensures ApplyBudget(t, recs).err == Some(BudgetRowWithoutStat)
  {
    ApplyBudgetFailsAt(t, recs, |recs|);
  }

  /** GetStats as a whole: the stats export, its records, the budget export, the
      priced records. */
  function Reconcile(statsResp: Result<Response>, budgetResp: Result<Response>): Partial {
    match GetTsv(statsResp)
    case Err(e) => Partial([], Some(e))
    case Ok(st) =>
      var stats := StatsRecords(st);
      if stats.err.Some? then stats
      else match GetTsv(budgetResp)
        case Err(e) => Partial(stats.records, Some(e))
        case Ok(bt) => ApplyBudget(bt, stats.records)
  }

  /** Record i after a successful GetStats, as the two tables determine it: the
      parse of stats data row i, priced by budget data row i when there is one and
      left with zero spend and cpm otherwise. */
  predicate RecordOfRows(st: Table, bt: Table, recs: seq<Stats>, i: nat)
    requires i + 1 < |st| && i < |recs|
  {
    && ParseStatsRow(st[i + 1]).Ok?
    && var s := ParseStatsRow(st[i + 1]).value;
       if i + 1 < |bt| then
         Aligned(ReadBudgetRow(bt[i + 1]), s)
         && recs[i] == Priced(s, ReadBudgetRow(bt[i + 1]).amount.value.value)
       else recs[i] == s
  }

  /** A successful GetStats: one record per stats data row, in order, each carrying
      the date and counts of its row; the records with a budget row carry its amount
      and the matching cpm, and the rest keep zero spend and zero cpm. */
  lemma ReconcileOk(statsResp: Result<Response>, budgetResp: Result<Response>)
    requires Reconcile(statsResp, budgetResp).err.None?
    ensures GetTsv(statsResp).Ok? && GetTsv(budgetResp).Ok?
    ensures |Reconcile(statsResp, budgetResp).records|
         == (if |GetTsv(statsResp).value| <= 1 then 0 else |GetTsv(statsResp).value| - 1)
    ensures |GetTsv(budgetResp).value| <= 1
         || (|GetTsv(budgetResp).value[0]| <= 3
             && |GetTsv(budgetResp).value| - 1 <= |Reconcile(statsResp, budgetResp).records|)
    ensures forall i :: 0 <= i < |Reconcile(statsResp, budgetResp).records| ==>
      RecordOfRows(GetTsv(statsResp).value, GetTsv(budgetResp).value, Reconcile(statsResp, budgetResp).records, i)
  {
    var st := GetTsv(statsResp).value;
    var stats := StatsRecords(st);
    assert stats.err.None?;
    var bt := GetTsv(budgetResp).value;
    var recs := Reconcile(statsResp, budgetResp).records;
    assert Reconcile(statsResp, budgetResp) == ApplyBudget(bt, stats.records);
    StatsRecordsSpec(st);
    ApplyBudgetSpec(bt, stats.records);
    forall i | 0 <= i < |recs|
      ensures RecordOfRows(st, bt, recs, i)
    {
      var s := stats.records[i];
      assert ParseStatsRow(st[i + 1]) == Ok(s);
      if i + 1 < |bt| {
        assert Aligned(ReadBudgetRow(bt[i + 1]), s);
        assert recs[i] == Priced(s, ReadBudgetRow(bt[i + 1]).amount.value.value);
      } else {
        assert recs[i] == s;
      }
    }
  }

  /** The first loop of GetStats: one record appended per stats data row, each
      field parsed in turn, stopping at the first failure. */
  method ReadStatsTable(t: Table) returns (res: seq<Stats>, err: Option<Error>)
    ensures Partial(res, err) == StatsRecords(t)
  {
    res := [];
    if |t| <= 1 {
      return res, None;
    }
    if |t[0]| > 4 {
      return res, Some(StatsCols);
    }
    ghost var ps := ParseRows(t[1..]);
    var i := 0;
    while i < |t| - 1
      invariant 0 <= i <= |t| - 1
      invariant CollectFrom(ps, i, res) == StatsRecords(t)
    {
      var row := t[i + 1];
      assert ps[i] == ParseStatsRow(row);
      if |row| < 1 { return res, Some(RowTooShort); }
      var date := ParseDate(row[0]);
      if date.Err? { return res, Some(date.error); }
      if |row| < 2 { return res, Some(RowTooShort); }
      var digits := OnlyNumeric(row[1]);
      var views := Atoi(digits);
      if views.Err? { return res, Some(views.error); }
      if |row| < 3 { return res, Some(RowTooShort); }
      digits := OnlyNumeric(row[2]);
      var clicks := Atoi(digits);
      if clicks.Err? { return res, Some(clicks.error); }
      if |row| < 4 { return res, Some(RowTooShort); }
      digits := OnlyNumeric(row[3]);
      var actions := Atoi(digits);
      if actions.Err? { return res, Some(actions.error); }
      res := res + [Stats(date.value, views.value, clicks.value, actions.value, 0.0, 0.0)];
      i := i + 1;
    }
    err := None;
  }

  /** One pass of the budget loop: data row `row` applied to record i. */
  method PriceRecord(recs: seq<Stats>, row: seq<string>, i: nat) returns (res: seq<Stats>, err: Option<Error>)
    ensures Partial(res, err) == BudgetStep(recs, ReadBudgetRow(row), i)
  {
    res := recs;
    if |row| < 1 { return res, Some(RowTooShort); }
    var datetime := ParseDate(row[0]);
    if datetime.Err? { return res, Some(datetime.error); }
    if i >= |res| { return res, Some(BudgetRowWithoutStat); }
    if res[i].date != datetime.value { return res, Some(InvalidDatetime); }
    if |row| < 2 { return res, Some(RowTooShort); }
    var spend := ParseDecimal(Text.CommaToPoint(row[1]));
    if spend.Err? {
      res := res[i := res[i].(spend := 0.0)];
      return res, Some(spend.error);
    }
    res := res[i := res[i].(spend := spend.value, cpm := Cpm(spend.value, res[i].views))];
    err := None;
  }

  /** The second loop of GetStats: budget data row i prices record i in place. */
  method PriceByBudget(b: Table, stats: seq<Stats>) returns (res: seq<Stats>, err: Option<Error>)
    ensures Partial(res, err) == ApplyBudget(b, stats)
  {
    res := stats;
    if |b| <= 1 {
      return res, None;
    }
    if |b[0]| > 3 {
      return res, Some(BudgetCols);
    }
    ghost var bs := ReadBudgetRows(b[1..]);
    var i := 0;
    while i < |b| - 1
      invariant 0 <= i <= |b| - 1
      invariant BudgetFrom(bs, i, res) == ApplyBudget(b, stats)
    {
      assert bs[i] == ReadBudgetRow(b[i + 1]);
      var priced, rowErr := PriceRecord(res, b[i + 1], i);
      if rowErr.Some? {
        return priced, rowErr;
      }
      res := priced;
      i := i + 1;
    }
    err := None;
  }

  /** GetStats: the stats export read into records, then the budget export applied
      to them; on an error the records so far are returned with it. */
  method GetStats(statsResp: Result<Response>, budgetResp: Result<Response>) returns (res: seq<Stats>, err: Option<Error>)
    ensures Partial(res, err) == Reconcile(statsResp, budgetResp)
  {
    var rows := GetTsv(statsResp);
    if rows.Err? {
      return [], Some(rows.error);
    }
    res, err := ReadStatsTable(rows.value);
    if err.Some? {
      return res, err;
    }
    rows := GetTsv(budgetResp);
    if rows.Err? {
      return res, Some(rows.error);
    }
    res, err := PriceByBudget(rows.value, res);
  }
}

=== FILE: store.dfy ===
/**
  The storage side (internal/repository/sql_queries.go and stats.go): three
  tables and the four statements run against them.

  - tgads.stats, keyed by (campaign_id, date): the batch of parallel arrays
    is cast and unnested into rows; a row whose key exists overwrites it.
  - tgads.campaigns, keyed by id: an insert whose id exists does nothing.
  - tgads.rates, keyed by date: the rate of a date is overwritten.
  - SELECT * over tgads.campaigns returns every row once, in no set order.

  A statement either applies as a whole or fails and leaves every table as
  it was.
 */
module Store {
  import opened Outcome
  import opened Dates
  import opened Reconcile
  import opened StatsBatch

  datatype StatKey = StatKey(campaignId: string, date: CalendarDate)

  datatype StatRow = StatRow(views: int, clicks: int, actions: int, spend: real, cpm: real)

  type StatsTable = map<StatKey, StatRow>

  /** A row of the statement's VALUES: the date and the columns set from it. */
  type DatedRow = (CalendarDate, StatRow)

  const MinInt4: int := -0x8000_0000
  const MaxInt4: int := 0x7FFF_FFFF

  /** What the `::int` cast accepts: a 32-bit signed integer. */
  predicate IsInt4(n: int) {
    MinInt4 <= n <= MaxInt4
  }

  /** Every element of the three count arrays survives the `::int[]` cast. */
  predicate CountsFit(b: Batch) {
    && (forall i :: 0 <= i < |b.views| ==> IsInt4(b.views[i]))
    && (forall i :: 0 <= i < |b.clicks| ==> IsInt4(b.clicks[i]))
    && (forall i :: 0 <= i < |b.action| ==> IsInt4(b.action[i]))
  }

  /** Every element of the date array survives the `::date[]` cast. */
  predicate DatesCast(b: Batch) {
    forall i :: 0 <= i < |b.datetime| ==> CastDate(b.datetime[i]).Some?
  }

  /** The VALUES of queryCreateStats: the arrays cast, then unnested in lockstep into
      one row per index. */
  function Unnest(b: Batch): (r: Result<seq<DatedRow>>)
    ensures r.Ok? <==> DatesCast(b) && CountsFit(b) && Columnar(b, |b.datetime|)
    ensures r.Ok? ==> Columnar(b, |r.value|) && forall i :: 0 <= i < |r.value| ==>
      && CastDate(b.datetime[i]) == Some(r.value[i].0)
      && DateTimeFormat(r.value[i].0) == b.datetime[i]
      && r.value[i].1 == StatRow(b.views[i], b.clicks[i], b.action[i], b.spend[i], b.cpm[i])
    ensures r.Err? ==> r.error in {DateCastFailed, IntegerOutOfRange, RaggedBatch}
  {
    if !DatesCast(b) then Err(DateCastFailed)
    else if !CountsFit(b) then Err(IntegerOutOfRange)
    else if !Columnar(b, |b.datetime|) then Err(RaggedBatch)
    else
      Ok(seq(|b.datetime|, i requires 0 <= i < |b.datetime| =>
        (CastDate(b.datetime[i]).value, StatRow(b.views[i], b.clicks[i], b.action[i], b.spend[i], b.cpm[i]))))
  }

  /** No two rows of one statement share a date: ON CONFLICT DO UPDATE refuses to
      update one row twice. */
  predicate DistinctDates(rows: seq<DatedRow>) {
    forall i, j :: 0 <= i < j < |rows| ==> rows[i].0 != rows[j].0
  }

  function BatchKeys(campaignId: string, rows: seq<DatedRow>): set<StatKey> {
    set i | 0 <= i < |rows| :: StatKey(campaignId, rows[i].0)
  }

  /** The rows of a statement applied in order: each inserts its key or overwrites the
      row there. The keys become the old keys and the batch's; a key outside the batch
      keeps its row. */
  function UpsertAll(t: StatsTable, campaignId: string, rows: seq<DatedRow>): (r: StatsTable)
    ensures r.Keys == t.Keys + BatchKeys(campaignId, rows)
    ensures forall k :: k in t && k !in BatchKeys(campaignId, rows) ==> r[k] == t[k]
    decreases |rows|
  {
    if rows == [] then t
    else
      var init := rows[..|rows| - 1];
      var last := rows[|rows| - 1];
      assert BatchKeys(campaignId, rows) == BatchKeys(campaignId, init) + {StatKey(campaignId, last.0)} by {
        assert forall i :: 0 <= i < |init| ==> init[i] == rows[i];
      }
      UpsertAll(t, campaignId, init)[StatKey(campaignId, last.0) := last.1]
  }

  /** With distinct dates, the row of every batch date holds exactly that batch
      entry, whether or not the key existed before. */
  lemma {:induction false} UpsertAllPointwise(t: StatsTable, campaignId: string, rows: seq<DatedRow>, i: nat)
    requires DistinctDates(rows) && i < |rows|
    ensures UpsertAll(t, campaignId, rows)[StatKey(campaignId, rows[i].0)] == rows[i].1
    decreases |rows|
  {
    var init := rows[..|rows| - 1];
    if i < |rows| - 1 {
      assert init[i] == rows[i];
      assert DistinctDates(init) by {
        assert forall a :: 0 <= a < |init| ==> init[a] == rows[a];
      }
      UpsertAllPointwise(t, campaignId, init, i);
      assert rows[i].0 != rows[|rows| - 1].0;
    }
  }

  /** Running the same batch twice leaves the table as running it once. */
  lemma UpsertAllIdempotent(t: StatsTable, campaignId: string, rows: seq<DatedRow>)
    requires DistinctDates(rows)
    ensures UpsertAll(UpsertAll(t, campaignId, rows), campaignId, rows) == UpsertAll(t, campaignId, rows)
  {
    var once := UpsertAll(t, campaignId, rows);
    var twice := UpsertAll(once, campaignId, rows);
    forall k | k in once
      ensures twice[k] == once[k]
    {
      if k in BatchKeys(campaignId, rows) {
        var i :| 0 <= i < |rows| && k == StatKey(campaignId, rows[i].0);
        UpsertAllPointwise(t, campaignId, rows, i);
        UpsertAllPointwise(once, campaignId, rows, i);
      }
    }
  }

  datatype CampaignRow = CampaignRow(
    id: string,
    name: string,
    statsCsvLink: string,
    budgetCsvLink: string,
    text: string,
    buttonText: string,
    link: string,
    active: bool,
    createdAt: int)   // filled in by the table's default, the time of the insert

  type CampaignsTable = map<string, CampaignRow>

  /** queryCreateCampaign: a new id adds its row, an existing id changes nothing. */
  function InsertCampaign(t: CampaignsTable, row: CampaignRow): (r: CampaignsTable)
    ensures row.id in t ==> r == t
    ensures row.id !in t ==> r.Keys == t.Keys + {row.id} && |r| == |t| + 1 && r[row.id] == row
    ensures forall id :: id in t ==> id in r && r[id] == t[id]
  {
    if row.id in t then t else t[row.id := row]
  }

  lemma InsertCampaignIdempotent(t: CampaignsTable, row: CampaignRow)
    ensures InsertCampaign(InsertCampaign(t, row), row) == InsertCampaign(t, row)
  {
  }

  /** The first insert of an id wins; later inserts of it are ignored. */
  lemma FirstCampaignWins(t: CampaignsTable, a: CampaignRow, b: CampaignRow)
    requires a.id == b.id && a.id !in t
    ensures InsertCampaign(InsertCampaign(t, a), b)[a.id] == a
  {
  }

  type RatesTable = map<CalendarDate, real>

  /** queryCreateRate: the rate of `date` becomes `rate`, whatever it was. */
  function UpsertRate(t: RatesTable, date: CalendarDate, rate: real): (r: RatesTable)
    ensures r.Keys == t.Keys + {date} && r[date] == rate
    ensures forall d :: d in t && d != date ==> r[d] == t[d]
  {
    t[date := rate]
  }

  /** The last rate written for a date is the one that stays. */
  lemma LastRateWins(t: RatesTable, date: CalendarDate, a: real, b: real)
    ensures UpsertRate(UpsertRate(t, date, a), date, b) == UpsertRate(t, date, b)
  {
  }

  /** The database: the three tables. */
  class Database {
    var stats: StatsTable
    var campaigns: CampaignsTable
    var rates: RatesTable

    /** The campaigns table is keyed by each row's own id. */
    ghost predicate Valid()
      reads this
    {
      forall id :: id in campaigns ==> campaigns[id].id == id
    }

    constructor ()
      ensures Valid()
      ensures stats == map[] && campaigns == map[] && rates == map[]
    {
      stats := map[];
      campaigns := map[];
      rates := map[];
    }

    /** queryCreateStats with its seven parameters. It succeeds exactly when the batch
        casts and unnests and no date repeats; then every row is upserted, otherwise
        nothing changes. */
    method ExecCreateStats(campaignId: string, batch: Batch) returns (err: Option<Error>)
      modifies this
      ensures campaigns == old(campaigns) && rates == old(rates)
      ensures err.None? <==> Unnest(batch).Ok? && DistinctDates(Unnest(batch).value)
      ensures err.None? ==> stats == UpsertAll(old(stats), campaignId, Unnest(batch).value)
      ensures err.Some? ==> stats == old(stats)
      ensures Unnest(batch).Err? ==> err == Some(Unnest(batch).error)
      ensures Unnest(batch).Ok? && !DistinctDates(Unnest(batch).value) ==> err == Some(DuplicateBatchKey)
    {
      var rows := Unnest(batch);
      if rows.Err? {
        return Some(rows.error);
      }
      if !DistinctDates(rows.value) {
        return Some(DuplicateBatchKey);
      }
      UpsertRows(campaignId, rows.value);
      err := None;
    }

    /** The rows of one statement written into the stats table one after another. */
    method UpsertRows(campaignId: string, rows: seq<DatedRow>)
      modifies this
      ensures campaigns == old(campaigns) && rates == old(rates)
      ensures stats == UpsertAll(old(stats), campaignId, rows)
    {
      var i := 0;
      while i < |rows|
        invariant 0 <= i <= |rows|
        invariant stats == UpsertAll(old(stats), campaignId, rows[..i])
        invariant campaigns == old(campaigns) && rates == old(rates)
      {
        var row := rows[i];
        assert rows[..i + 1][..i] == rows[..i];
        stats := stats[StatKey(campaignId, row.0) := row.1];
        i := i + 1;
      }
      assert rows[..i] == rows;
    }

    /** queryCreateCampaign with its eight parameters; `now` is the creation time the
        table's default supplies. */
    method ExecCreateCampaign(id: string, name: string, statsCsvLink: string, budgetCsvLink: string,
                              text: string, buttonText: string, link: string, active: bool, now: int)
      requires Valid()
      modifies this
      ensures Valid()
      ensures stats == old(stats) && rates == old(rates)
      ensures campaigns == InsertCampaign(old(campaigns),
        CampaignRow(id, name, statsCsvLink, budgetCsvLink, text, buttonText, link, active, now))
    {
      if id !in campaigns {
        campaigns := campaigns[id := CampaignRow(id, name, statsCsvLink, budgetCsvLink, text, buttonText, link, active, now)];
      }
    }

    /** queryCreateRate. */
    method ExecCreateRate(date: CalendarDate, rate: real)
      modifies this
      ensures stats == old(stats) && campaigns == old(campaigns)
      ensures rates == UpsertRate(old(rates), date, rate)
    {
      rates := rates[date := rate];
    }

    /** queryFetchCampaigns: a scan of the table, yielding every row exactly once. */
    method FetchCampaigns() returns (res: seq<CampaignRow>)
      requires Valid()
      ensures |res| == |campaigns|
      ensures forall r :: r in res <==> r in campaigns.Values
      ensures forall i, j :: 0 <= i < j < |res| ==> res[i].id != res[j].id
    {
      res := [];
      var left := campaigns.Keys;
      while left != {}
        invariant left <= campaigns.Keys
        invariant |res| + |left| == |campaigns|
        invariant forall i :: 0 <= i < |res| ==> res[i].id in campaigns && res[i].id !in left && campaigns[res[i].id] == res[i]
        invariant forall id :: id in campaigns && id !in left ==> campaigns[id] in res
        invariant forall i, j :: 0 <= i < j < |res| ==> res[i].id != res[j].id
        decreases |left|
      {
        var id :| id in left;
        res := res + [campaigns[id]];
        left := left - {id};
      }
    }
  }

  /** The row a record becomes. */
  function RowOf(s: Stats): StatRow {
    StatRow(s.views, s.clicks, s.actions, s.spend, s.cpm)
  }

  function RowsOf(stats: seq<Stats>): (rows: seq<DatedRow>)
    ensures |rows| == |stats|
    ensures forall i :: 0 <= i < |stats| ==> rows[i] == (stats[i].date, RowOf(stats[i]))
  {
    seq(|stats|, i requires 0 <= i < |stats| => (stats[i].date, RowOf(stats[i])))
  }

  /** The counts of every record fit the `::int` cast. */
  predicate CountsFitInt4(stats: seq<Stats>) {
    forall i :: 0 <= i < |stats| ==>
      IsInt4(stats[i].views) && IsInt4(stats[i].clicks) && IsInt4(stats[i].actions)
  }

  /** No record is dated in year 0, which the `::date` cast refuses. */
  predicate YearsCast(stats: seq<Stats>) {
    forall i :: 0 <= i < |stats| ==> stats[i].date.year >= 1
  }

  /** Every rendered date of a batch casts back to its record's date, except one in
      year 0, and so the date array casts exactly when no record is dated in year 0. */
  lemma DatesCastBack(b: Batch, stats: seq<Stats>)
    requires Columnar(b, |stats|) && Corresponds(b, stats)
    ensures forall i :: 0 <= i < |stats| ==>
      CastDate(b.datetime[i]) == if stats[i].date.year == 0 then None else Some(stats[i].date)
    ensures DatesCast(b) <==> YearsCast(stats)
  {
    forall i | 0 <= i < |stats|
      ensures CastDate(b.datetime[i]) == if stats[i].date.year == 0 then None else Some(stats[i].date)
    {
      CastDateTimeFormat(stats[i].date);
    }
    if !YearsCast(stats) {
      var i :| 0 <= i < |stats| && stats[i].date.year < 1;
      assert CastDate(b.datetime[i]).None?;
    }
  }

  /** The count arrays of a batch fit the `::int` cast exactly when the records' counts do. */
  lemma CountsFitBatch(b: Batch, stats: seq<Stats>)
    requires Columnar(b, |stats|) && Corresponds(b, stats)
    ensures CountsFit(b) <==> CountsFitInt4(stats)
  {
    if !CountsFitInt4(stats) {
      var i :| 0 <= i < |stats| && !(IsInt4(stats[i].views) && IsInt4(stats[i].clicks) && IsInt4(stats[i].actions));
      assert !IsInt4(b.views[i]) || !IsInt4(b.clicks[i]) || !IsInt4(b.action[i]);
    }
  }

  /** A batch holding the records' columns unnests back to those records. It fails on
      a record dated in year 0, and otherwise only on a count that does not fit. */
  lemma UnnestCorresponding(b: Batch, stats: seq<Stats>)
    requires Columnar(b, |stats|) && Corresponds(b, stats)
    ensures Unnest(b) ==
      if !YearsCast(stats) then Err(DateCastFailed)
      else if !CountsFitInt4(stats) then Err(IntegerOutOfRange)
      else Ok(RowsOf(stats))
  {
    DatesCastBack(b, stats);
    CountsFitBatch(b, stats);
    if YearsCast(stats) && CountsFitInt4(stats) {
      var r := Unnest(b).value;
      forall i | 0 <= i < |stats|
        ensures r[i] == RowsOf(stats)[i]
      {
      }
      assert r == RowsOf(stats);
    }
  }

  /** The batch Create builds unnests back to the records it came from: each rendered
      date casts back to its date. It fails on a record dated in year 0, and otherwise
      only on a count that does not fit. */
  lemma UnnestColumns(stats: seq<Stats>)
    ensures Unnest(Columns(stats)) ==
      if !YearsCast(stats) then Err(DateCastFailed)
      else if !CountsFitInt4(stats) then Err(IntegerOutOfRange)
      else Ok(RowsOf(stats))
  {
    UnnestCorresponding(Columns(stats), stats);
  }

  /** statsRepository.Create over a database. */
  class StatsRepository {
    const db: Database

    constructor (db: Database)
      ensures this.db == db
    {
      this.db := db;
    }

    /** The records become one batch and one statement; its error is returned as it is.
        It succeeds exactly when no record is dated in year 0, every count fits 32 bits
        and no two records share a date, and then the campaign's row of each record's
        date holds that record. */
    method Create(campaignId: string, stats: seq<Stats>) returns (err: Option<Error>)
      modifies db
      ensures db.campaigns == old(db.campaigns) && db.rates == old(db.rates)
      ensures err.None? <==> YearsCast(stats) && CountsFitInt4(stats) && DistinctDates(RowsOf(stats))
      ensures err.None? ==> db.stats == UpsertAll(old(db.stats), campaignId, RowsOf(stats))
      ensures err.Some? ==> db.stats == old(db.stats)
      ensures !YearsCast(stats) ==> err == Some(DateCastFailed)
      ensures YearsCast(stats) && !CountsFitInt4(stats) ==> err == Some(IntegerOutOfRange)
    {
      var batch := BuildBatch(stats);
      UnnestColumns(stats);
      err := db.ExecCreateStats(campaignId, batch);
    }
  }

  /** After a successful Create, each record is stored under its campaign and date. */
  lemma CreateStoresEveryRecord(t: StatsTable, campaignId: string, stats: seq<Stats>, i: nat)
    requires DistinctDates(RowsOf(stats)) && i < |stats|
    ensures StatKey(campaignId, stats[i].date) in UpsertAll(t, campaignId, RowsOf(stats))
    ensures UpsertAll(t, campaignId, RowsOf(stats))[StatKey(campaignId, stats[i].date)] == RowOf(stats[i])
  {
    var rows := RowsOf(stats);
    assert StatKey(campaignId, rows[i].0) in BatchKeys(campaignId, rows);
    UpsertAllPointwise(t, campaignId, rows, i);
  }
}

=== FILE: text.dfy ===
/**
  String helpers of the Go standard library that the scraper relies on:
  bytes.Index with a one-character needle, strings.ReplaceAll(s, ",", ".") and
  strings.TrimSpace.
 */
module Text {

  /** bytes.Index with the one-character needle `c`: its first position in `s`, or -1. */
  function IndexOf(s: string, c: char): (i: int)
    ensures -1 <= i < |s|
    ensures i >= 0 ==> s[i] == c && forall j :: 0 <= j < i ==> s[j] != c
    ensures i < 0 ==> forall j :: 0 <= j < |s| ==> s[j] != c
  {
    if s == [] then -1
    else if s[0] == c then 0
    else
      var k := IndexOf(s[1..], c);
      if k < 0 then -1 else k + 1
  }

  /** The first position holding `c` is the one IndexOf reports. */
  lemma IndexOfFirst(s: string, c: char, k: int)
    requires 0 <= k < |s| && s[k] == c
    requires forall j :: 0 <= j < k ==> s[j] != c
    ensures IndexOf(s, c) == k
  {
  }

  lemma IndexOfAbsent(s: string, c: char)
    requires forall j :: 0 <= j < |s| ==> s[j] != c
    ensures IndexOf(s, c) < 0
  {
  }

  /** strings.ReplaceAll(s, ",", "."): the decimal comma becomes a point. */
  function CommaToPoint(s: string): (r: string)
    ensures |r| == |s|
    ensures forall i :: 0 <= i < |s| ==> r[i] == (if s[i] == ',' then '.' else s[i])
  {
    if s == [] then [] else [if s[0] == ',' then '.' else s[0]] + CommaToPoint(s[1..])
  }

  /** unicode.IsSpace, the class strings.TrimSpace removes. */
  predicate IsSpace(c: char) {
    var n := c as int;
    (9 <= n <= 13) || n == 32 || n == 0x85 || n == 0xA0 || n == 0x1680
    || (0x2000 <= n <= 0x200A) || n == 0x2028 || n == 0x2029 || n == 0x202F
    || n == 0x205F || n == 0x3000
  }

  predicate AllSpace(s: string) {
    forall i :: 0 <= i < |s| ==> IsSpace(s[i])
  }

  function TrimLeft(s: string): (r: string)
    ensures |r| <= |s| && r == s[|s| - |r|..]
    ensures AllSpace(s[..|s| - |r|])
    ensures r == [] || !IsSpace(r[0])
  {
    if s != [] && IsSpace(s[0]) then
      var r := TrimLeft(s[1..]);
      assert forall i :: 0 < i < |s| ==> s[i] == s[1..][i - 1];
      r
    else s
  }

  function TrimRight(s: string): (r: string)
    ensures |r| <= |s| && r == s[..|r|]
    ensures AllSpace(s[|r|..])
    ensures r == [] || !IsSpace(r[|r| - 1])
  {
    if s != [] && IsSpace(s[|s| - 1]) then
      var r := TrimRight(s[..|s| - 1]);
      assert forall i :: 0 <= i < |s| - 1 ==> s[i] == s[..|s| - 1][i];
      r
    else s
  }

  /** strings.TrimSpace: `s` without its leading and trailing white space. */
  function TrimSpace(s: string): (r: string)
    ensures |r| <= |s|
    ensures r == [] || (!IsSpace(r[0]) && !IsSpace(r[|r| - 1]))
  {
    TrimRight(TrimLeft(s))
  }

  /** The white space TrimSpace removes from the front of `s`. */
  function LeadingSpace(s: string): string {
    s[..|s| - |TrimLeft(s)|]
  }

  /** The white space TrimSpace removes from the back of `s`. */
  function TrailingSpace(s: string): string {
    var l := TrimLeft(s);
    l[|TrimRight(l)|..]
  }

  /** TrimSpace only removes white space: `s` is its result framed by white space. */
  lemma TrimSpaceDecomposes(s: string)
    ensures AllSpace(LeadingSpace(s)) && AllSpace(TrailingSpace(s))
    ensures s == LeadingSpace(s) + TrimSpace(s) + TrailingSpace(s)
  {
    TrimmedIsSpace(s);
    var l := TrimLeft(s);
    var r := TrimRight(l);
    assert LeadingSpace(s) == s[..|s| - |l|];
    assert TrimSpace(s) == r;
    assert TrailingSpace(s) == l[|r|..];
    Recompose(s, l, r);
  }

  lemma TrimmedIsSpace(s: string)
    ensures AllSpace(LeadingSpace(s)) && AllSpace(TrailingSpace(s))
  {
    var l := TrimLeft(s);
    assert AllSpace(s[..|s| - |l|]);
    assert AllSpace(l[|TrimRight(l)|..]);
  }

  /** A suffix `l` of `s` and a prefix `r` of `l` cut `s` into three pieces. */
  lemma Recompose(s: string, l: string, r: string)
    requires |l| <= |s| && l == s[|s| - |l|..]
    requires |r| <= |l| && r == l[..|r|]
    ensures s == s[..|s| - |l|] + r + l[|r|..]
  {
    assert l == r + l[|r|..];
    assert s == s[..|s| - |l|] + l;
  }

  lemma {:induction false} TrimLeftSkipsSpace(sp: string, x: string)
    requires AllSpace(sp)
    ensures TrimLeft(sp + x) == TrimLeft(x)
  {
    if sp != [] {
      assert (sp + x)[0] == sp[0];
      assert (sp + x)[1..] == sp[1..] + x;
      TrimLeftSkipsSpace(sp[1..], x);
    } else {
      assert sp + x == x;
    }
  }

  lemma {:induction false} TrimRightSkipsSpace(x: string, sp: string)
    requires AllSpace(sp)
    ensures TrimRight(x + sp) == TrimRight(x)
  {
    if sp != [] {
      var y := x + sp;
      assert y[|y| - 1] == sp[|sp| - 1];
      assert y[..|y| - 1] == x + sp[..|sp| - 1];
      TrimRightSkipsSpace(x, sp[..|sp| - 1]);
    } else {
      assert x + sp == x;
    }
  }

  /** Framing a text that neither starts nor ends with white space by white space
      and trimming gives the text back. */
  lemma TrimSpaceOfFramed(l: string, x: string, r: string)
    requires AllSpace(l) && AllSpace(r)
    requires x != [] && !IsSpace(x[0]) && !IsSpace(x[|x| - 1])
    ensures TrimSpace(l + x + r) == x
  {
    assert l + x + r == l + (x + r);
    TrimLeftSkipsSpace(l, x + r);
    assert TrimLeft(x + r) == x + r;
    TrimRightSkipsSpace(x, r);
  }
}
